=== FILE: README.md ===
# VyxalBot3 command dispatch, modelled in Dafny

This project models `CommandDispatcher` in `vyxalbot3/commands/dispatcher.py`. That is the part of the
chat bot that takes a tokenized `!!/…` command and turns it into one of these outcomes:

- a call of a handler, with its keyword arguments bound;
- a trick's canned reply;
- a `CommandError` sent back to the chat room;
- nothing at all.

It covers these steps, each of which follows the code's branches and check order:

- **Tree walk** (`split_arguments`). The leading FLAG tokens descend the command tree. The walk ends in one of three ways:
  - a leaf is reached, and the remaining tokens are kept;
  - a name is missing from the group reached;
  - the flags run out while still at a group.
- **Binding** (`create_argument_value` and `prepare_arguments`).
  - Enum coercion of FLAG tokens.
  - Kind checks for WORD, STRING and NUMBER.
  - Positional pairing in the style of `zip_longest`. An injected parameter still consumes a token.
  - Keyword checks in the source's order: illegal, then repeated, then unknown, then coercion.
  - The "not provided" check, in declaration order.
  - Context injection. It applies only to declared names and overrides user values.
- **Permissions** (`check_permissions`). The handler's canonical name is the function name with the suffix removed and `_` replaced by a space. The admin-group bypass applies, and a command with no rules is open to all.
- **Invocation** (`invoke`). It combines the steps above, including:
  - the trick lookup that shadows a missing command;
  - the top-level and nested "no such command" errors;
  - the listing of a group's subcommands;
  - the permission check, which happens before binding.
- **Replies** (`handle`). This decides which message, if any, is sent and to which message id it replies.

Errors are a structured datatype (`Errors.CommandError`) that carries the data each message shows, rather than the English text. The pieces the source builds from ordered data are computed exactly:

- the enum literals joined by `/`;
- the parent name or group name joined by spaces.

Modules follow the source's structure: `Tokens`, `Signatures`, `CommandTree`, `Binding`, `Permissions` and `Dispatcher`. Besides them:

- `Text` holds the string helpers.
- `Results` holds `Option`, `Result` and `Outcome`.
- `Chat` holds the event and user records.
- `Scenarios` holds small concrete trees.

Some edge cases of the code, which the model keeps:

- A token list whose first token is not a FLAG makes `invoke` return `None`, so `handle` sends nothing. No error is reported.
- A FLAG run that stops at a group lists that group's subcommands, even when a non-FLAG token follows.
- An empty token list makes `invoke` read a first token that does not exist, which raises `IndexError`. That is not a `CommandError`, so `handle` lets it escape (`Crashed`).
- The parent name shown for a missing subcommand is every token but the last. When more tokens follow the missing name, it therefore includes that name (`Scenarios.ParentNameIncludesMissingName`).

## Model

| member | source | states |
|---|---|---|
| CommandTree.Walk | vyxalbot3/commands/dispatcher.py:52-64 | A reached leaf keeps a proper suffix of the tokens. A missing name is absent from the group where the walk stopped, and it is the name of one of the FLAG tokens. |
| CommandTree.AtStep | vyxalbot3/commands/dispatcher.py:59-61 | Descending one flag into a group and then k more is the same as descending k flags from that child group, in both directions. |
| CommandTree.WalkDescends | vyxalbot3/commands/dispatcher.py:55-61 | After descending through k flags to a group, the walk continues exactly as a walk from that group over the remaining tokens. |
| CommandTree.WalkFindsLeaf | vyxalbot3/commands/dispatcher.py:62-63 | If k flags lead to a leaf, the walk returns that handler with the tokens after those k flags. |
| CommandTree.WalkReportsMiss | vyxalbot3/commands/dispatcher.py:59-60 | If k flags lead to a group and the next flag is not one of its keys, the walk reports that group and that name. |
| CommandTree.WalkStopsOnGroup | vyxalbot3/commands/dispatcher.py:56-64 | If k flags lead to a group and the tokens then end or the next token is not a FLAG, the walk ends at that group with no name. |
| CommandTree.WalkSound | vyxalbot3/commands/dispatcher.py:52-64 | Every outcome of the walk has a flag prefix that explains it: a leaf with its remaining tokens, a group plus a missing next flag, or a group followed by the end of the tokens or a non-FLAG token. |
| CommandTree.LookupLowers | vyxalbot3/commands/dispatcher.py:61 | Each descent reaches a strictly lower node than the group it starts from. |
| CommandTree.BelowIsNotRoot | vyxalbot3/commands/dispatcher.py:200 | A group reached after at least one flag is never equal to the root, so the test `tree == self.tree` separates top-level misses from nested ones. |
| Signatures.Expected | vyxalbot3/commands/dispatcher.py:66-74 | The expected kind is FLAG exactly when the annotation is an enum. |
| Tokens.Displays | vyxalbot3/commands/dispatcher.py:204 | The displayed text of each token, position by position: a name or text as it is, a number in decimal. |
| Binding.CoerceSpec | vyxalbot3/commands/dispatcher.py:82-106 | A token is accepted exactly when its kind is the expected one and, if it is a FLAG, its name is one of the enum's literals. An accepted token yields the enum member or the raw value. A rejection is "invalid value" when the kinds match, otherwise "incorrect type" naming both kinds. |
| Binding.InvalidValueListsLiterals | vyxalbot3/commands/dispatcher.py:88-99 | For an enum with at least one value and no `/` in any value, the values listed by "invalid value" split back on `/` into exactly the enum's literals. |
| Binding.PositionalKeys | vyxalbot3/commands/dispatcher.py:118-132 | A successful positional stage binds exactly the non-ignored parameters paired with a token. |
| Binding.PositionalAccepts | vyxalbot3/commands/dispatcher.py:119-132 | The positional stage succeeds exactly when there are no more tokens than parameters and every non-ignored paired parameter accepts its token. |
| Binding.PositionalSuperfluous | vyxalbot3/commands/dispatcher.py:124-127 | "Superfluous" is raised exactly when the tokens outnumber the parameters and all paired tokens were accepted. It names the display text of the first extra token. |
| Binding.PositionalRejects | vyxalbot3/commands/dispatcher.py:128-132 | Any other positional failure is the coercion error of the first non-ignored parameter that rejects its token. |
| Binding.PositionalValues | vyxalbot3/commands/dispatcher.py:130-132 | With distinct parameter names, each bound parameter holds the coercion of the token paired with it. |
| Binding.KeywordKeys | vyxalbot3/commands/dispatcher.py:134-146 | A successful keyword stage adds exactly the keyword names. Each of them is declared, not ignored and not already bound. |
| Binding.KeywordsKeepBound | vyxalbot3/commands/dispatcher.py:138-141 | A successful keyword stage never overwrites a value that was already bound. |
| Binding.KeywordValues | vyxalbot3/commands/dispatcher.py:142-146 | Each keyword is bound to the coercion of its token under the parameter of that name. |
| Binding.KeywordsDistinct | vyxalbot3/commands/dispatcher.py:138-141 | A successful keyword stage saw each name at most once. |
| Binding.KeywordIllegal | vyxalbot3/commands/dispatcher.py:136-137 | "Illegal argument" names a keyword whose name is an ignored parameter. |
| Binding.KeywordRepeated | vyxalbot3/commands/dispatcher.py:138-141 | "Multiple values" names a non-ignored keyword that was already bound, either positionally or by an earlier keyword. |
| Binding.KeywordUnknown | vyxalbot3/commands/dispatcher.py:142-143 | "Unknown argument" names a keyword that is not ignored, not bound and not declared. |
| Binding.KeywordRejected | vyxalbot3/commands/dispatcher.py:144-146 | Any other keyword failure is the coercion error of the token of a declared keyword that is neither ignored nor bound before the stage. |
| Binding.KeywordsSucceed | vyxalbot3/commands/dispatcher.py:134-146 | The keyword stage succeeds exactly when every keyword, in turn, is not ignored, not bound before (positionally or by an earlier keyword), declared, and accepts its token. This condition is stated on the keyword list without running the stage. |
| Binding.KeywordFirstFailure | vyxalbot3/commands/dispatcher.py:135-146 | If every keyword before position f passes, keyword f decides the error, in the source's check order. An ignored name is illegal. Otherwise a name bound before has multiple values. Otherwise an undeclared name is unknown. Otherwise a rejected token gives its coercion error. |
| Binding.FirstMissing | vyxalbot3/commands/dispatcher.py:148-159 | The result is the first required, non-ignored parameter left unbound. If there is none, every required parameter is bound. |
| Binding.Inject | vyxalbot3/commands/dispatcher.py:161-164 | The context keys the signature declares are added and override any user value. Every other binding is kept. |
| Binding.PrepareGuarantees | vyxalbot3/commands/dispatcher.py:108-166 | After a successful binding: every required parameter is bound; only declared names are bound; each context key is bound, with the context's value, exactly when it is declared; an ignored name is bound only through the context. No keyword names a parameter that took a positional token. The bound names are exactly the non-ignored parameters that took a token, the keywords and the declared context keys, so a defaulted parameter nobody supplied stays unbound. |
| Binding.PreparePositionalValues | vyxalbot3/commands/dispatcher.py:118-132 | With distinct parameter names, after a successful binding each non-ignored parameter that took a positional token holds that token's coercion, unless the context overrides its name. |
| Binding.PrepareKeywordValues | vyxalbot3/commands/dispatcher.py:134-146 | After a successful binding each keyword names a declared parameter and holds its token's coercion for it, unless the context overrides the name. |
| Binding.PrepareLeavesUnsupplied | vyxalbot3/commands/dispatcher.py:115-166 | With distinct parameter names, a successful binding leaves unbound every parameter the user did not supply and the context does not name, and every ignored parameter the context does not name, even one that took a token. |
| Binding.PrepareFirstRejected | vyxalbot3/commands/dispatcher.py:118-132 | When every parameter before position j accepts its token and the non-ignored parameter at j rejects its own, binding fails with that coercion error, whatever the keywords and context are. |
| Binding.PrepareFirstKeywordFailure | vyxalbot3/commands/dispatcher.py:134-146 | Once the positional stage succeeds, the first failing keyword decides the error, ahead of any missing parameter, in this order: illegal if ignored; multiple values if bound by position or by an earlier keyword; unknown if undeclared; else its coercion error. |
| Binding.PrepareReportsFirstMissing | vyxalbot3/commands/dispatcher.py:148-159 | Once both stages succeed, binding fails exactly when some required parameter was supplied neither positionally nor by keyword. It then reports the first such parameter with its expected kind. |
| Binding.RequiredPrefixSucceeds | vyxalbot3/commands/dispatcher.py:118-166 | With no keyword arguments, binding succeeds when there is one token for every parameter up to the last required one and each non-ignored parameter among them accepts its token. Injected parameters may appear anywhere. |
| Binding.OneShortReportsNext | vyxalbot3/commands/dispatcher.py:148-159 | With no keyword arguments, when the tokens run out just before a required parameter and every non-ignored parameter before it accepted its token, binding reports that parameter as not provided, with its kind. Injected parameters before it do not change this. |
| Binding.TooManyReportsSuperfluous | vyxalbot3/commands/dispatcher.py:119-127 | With more accepted tokens than parameters, binding fails as superfluous at the first extra token. |
| Binding.IgnoredParameterTakesToken | vyxalbot3/commands/dispatcher.py:128-129 | An injected parameter listed first still consumes the first token, so the next parameter is reported as not provided. |
| Permissions.CanonicalName | vyxalbot3/commands/dispatcher.py:218-220 | The canonical name is the handler name without the suffix, with every `_` replaced by a space. It contains no `_`. |
| Permissions.CanonicalNameRoundTrip | vyxalbot3/commands/dispatcher.py:218-220 | For a name with the suffix and no spaces, putting back the `_`s and the suffix gives the original name. |
| Permissions.CheckPermissions | vyxalbot3/commands/dispatcher.py:168-180 | Passes exactly when the user is in the admin group, or the allowed set is empty, or the user shares a group with it. A refusal carries the allowed set. |
| Permissions.UnlistedCommandIsOpen | vyxalbot3/commands/dispatcher.py:169-177 | A command with no permission rows passes for every user. |
| Permissions.AdminAlwaysPasses | vyxalbot3/commands/dispatcher.py:173-174 | Membership of the admin group always passes. |
| Permissions.MoreGroupsKeepPermission | vyxalbot3/commands/dispatcher.py:173-177 | Permission is monotone in the user's groups. |
| Dispatcher.InvokeOutcomes | vyxalbot3/commands/dispatcher.py:182-232 | The empty token list faults. A non-FLAG first token gets no reply, in both directions. A trick reply is the body of a trick named by one of the flags. A call runs the handler a flag prefix leads to, which the user may run, with the binding of the tokens after that prefix. |
| Dispatcher.TrickAnswersMiss | vyxalbot3/commands/dispatcher.py:192-199 | A missing name that is a trick is answered with that trick's body, at any depth. |
| Dispatcher.MissAtTopLevel | vyxalbot3/commands/dispatcher.py:200-203 | A first flag that is neither a command nor a trick raises "no command" with that name. |
| Dispatcher.MissBelowTopLevel | vyxalbot3/commands/dispatcher.py:204-208 | A nested miss that is not a trick raises "no subcommand". It carries every token but the last as the parent name, the missing name, and the group's keys. |
| Dispatcher.IncompleteListsSubcommands | vyxalbot3/commands/dispatcher.py:209-214 | Stopping at a group lists its keys under the names of all the tokens, without consulting tricks. |
| Dispatcher.PermissionBeforeBinding | vyxalbot3/commands/dispatcher.py:215-222 | A refused user gets the permission error whatever the arguments are. |
| Dispatcher.LeafBindsRest | vyxalbot3/commands/dispatcher.py:223-232 | A permitted leaf calls its handler with the binding of the remaining tokens, or raises the binding error. |
| Dispatcher.Handle | vyxalbot3/commands/dispatcher.py:247-263 | A parse error is sent as "Parse error: …" in reply to the command. Every error replies to the command's message. A trick body, a raised error, a handler's returned text and a handler's `CommandError` are each sent as such in reply to the command. A returned message and target are sent to that target, and a reply elsewhere comes only from there. Nothing is sent exactly when `invoke` gave no reply or the handler returned something else. The exception escapes exactly when the token list was empty or the handler raised something other than a `CommandError`. |
| Scenarios.HelpRunsWithNoArguments | vyxalbot3/commands/dispatcher.py:223-232 | `!!/help` calls a parameterless handler with no arguments. The context is not passed to it. |
| Scenarios.EchoBindsText | vyxalbot3/commands/dispatcher.py:119-132 | `!!/echo "hi"` calls the handler with `text` bound to "hi". |
| Scenarios.SubcommandMissingNumber | vyxalbot3/commands/dispatcher.py:148-159 | `!!/group sub` with no tokens left reports `n` as not provided, of kind NUMBER. |
| Scenarios.UnknownSubcommand | vyxalbot3/commands/dispatcher.py:204-208 | `!!/group nope` reports that "group" has no subcommand "nope" and lists "sub". |
| Scenarios.ParentNameIncludesMissingName | vyxalbot3/commands/dispatcher.py:204 | `!!/group nope x` names the parent "group nope". |
| Scenarios.TrickShadowsMissingSubcommand | vyxalbot3/commands/dispatcher.py:194-199 | A trick named "nope" answers `!!/group nope` instead of the error. |
| Scenarios.WordFirstGetsNoReply | vyxalbot3/commands/dispatcher.py:189-190 | A command that starts with a WORD gets no reply. |
| Scenarios.IllegalBeforeTypeCheck | vyxalbot3/commands/dispatcher.py:135-146 | A keyword `event=x` for an injected NUMBER parameter is reported as illegal, not as a wrongly typed token. |
| Scenarios.PositionalThenKeywordRepeats | vyxalbot3/commands/dispatcher.py:138-141 | `text` given "a" by position and then named `text=b` is reported as having multiple values. |
| Scenarios.TypeErrorBeforeUnknownKeyword | vyxalbot3/commands/dispatcher.py:118-146 | A WORD token for the NUMBER parameter `n`, with the unknown keyword `zzz=y` beside it, is reported as an incorrect type, not as an unknown argument. |

## Left out

- The `run` loop is left out: the aiohttp fetch of the plain message text, the prefix test and `removeprefix`. These are network I/O.
- The Prisma database is not modelled. `Store` holds the tricks and permission rules as maps. `handle` takes the upserted user as a parameter, since the upsert is an effect on the database.
- `room.send` is not modelled. `handle` returns the `Delivery` it would send.
- The tokenizer `parse_arguments` is not part of this model. Its output is an input: a `ParseFailed` message, or the positional tokens plus the keyword tokens in insertion order.
- The constants `ADMIN_GROUP`, `COMMAND_FUNCTION_SUFFIX` and `IGNORED_PARAMETERS` are not part of this model; they are fields of `Dispatcher.Config`. Reading signatures through `inspect`/`typing` is left out as well: a handler is its name and its list of `Param`s.
- The English wording of each `CommandError` is left out. Errors are structured values that carry the data shown.
- The order of the subcommands and allowed groups in a message is left out. It follows dict or set iteration order; the model keeps them as sets.
- NUMBER tokens carry an `int`. The tokenizer's number type, which may include floats, is not part of this model.
- Signatures.Expected: covers only enum, WORD, STRING and NUMBER annotations, plus the optional form of the three plain types. Three cases are not modelled. An unknown annotation raises `KeyError` in the type lookup. A union whose second member is not None, or whose default is not None, fails an assertion. An optional enum (`E | None`) goes through the plain-type lookup, and when that gives FLAG, the enum assertion during conversion fails. `EnumOf` with a default stands only for a bare enum annotation whose default is a member.
- Dispatcher.Handle: a handler is an opaque function from its bindings to what it returns or raises. Its own effects are not modelled.

=== FILE: binding.dfy ===
/** Argument binding: `create_argument_value` and `prepare_arguments`. The
    set `ignored` is `IGNORED_PARAMETERS`, the names the user may never
    supply. */
module Binding {
  import opened Results
  import opened Tokens
  import opened Signatures
  import opened Errors
  import Chat
  import Text

  /** A value a handler argument can be bound to: the raw value of a WORD,
      STRING or NUMBER token, a member of an `Enum`, or a context value. */
  datatype Value =
    | Str(s: string)
    | Num(n: int)
    | Member(literal: string)
    | EventArg(event: Chat.Event)
    | UserArg(user: Chat.User)

  /** `argument_values`: parameter name to bound value. */
  type Bindings = map<string, Value>

  /** The raw value a token carries. */
  function Payload(t: Token): Value
  {
    match t
    case Flag(n) => Str(n)
    case Word(w) => Str(w)
    case Quoted(s) => Str(s)
    case Number(n) => Num(n)
  }

  // ---------------------------------------------------------------------
  // create_argument_value

  /** `create_argument_value`: a token converted for a parameter, against the
      kind the parameter's annotation expects. */
  function Coerce(p: Param, t: Token): Result<Value, CommandError>
  {
    if t.Flag? && Expected(p.ptype) == FLAG then
      if t.name in p.ptype.literals then Ok(Member(t.name))
      else Err(InvalidValue(p.name, Text.Join("/", p.ptype.literals)))
    else if t.KindOf() == Expected(p.ptype) then Ok(Payload(t))
    else Err(IncorrectType(p.name, Expected(p.ptype), t.KindOf()))
  }

  /** A token is accepted exactly when its kind is the one the annotation
      asks for and, for an enum, its name is one of the enum's values. An
      accepted enum token becomes the member of that value; any other accepted
      token is passed on as its raw value. A rejected token of the right kind
      is an unknown enum value, answered with all values joined by "/"; a
      token of the wrong kind is answered with both kinds. */
  lemma CoerceSpec(p: Param, t: Token)
    ensures Coerce(p, t).Ok? <==> t.KindOf() == Expected(p.ptype) && (t.Flag? ==> t.name in p.ptype.literals)
    ensures Coerce(p, t).Ok? ==> Coerce(p, t).value == if t.Flag? then Member(t.name) else Payload(t)
    ensures Coerce(p, t).Err? && t.KindOf() == Expected(p.ptype) ==>
      t.Flag? && t.name !in p.ptype.literals
      && Coerce(p, t).error == InvalidValue(p.name, Text.Join("/", p.ptype.literals))
    ensures Coerce(p, t).Err? && t.KindOf() != Expected(p.ptype) ==>
      Coerce(p, t).error == IncorrectType(p.name, Expected(p.ptype), t.KindOf())
  {
  }

  /** The values an "Invalid value" message lists are exactly the enum's
      values, in declaration order, whenever none of them contains "/". */
  lemma InvalidValueListsLiterals(p: Param, t: Token)
    requires p.ptype.EnumOf? && |p.ptype.literals| > 0
    requires forall i :: 0 <= i < |p.ptype.literals| ==> '/' !in p.ptype.literals[i]
    requires Coerce(p, t).Err? && t.Flag?
    ensures Coerce(p, t).error.InvalidValue?
    ensures Text.Split(Coerce(p, t).error.values, '/') == p.ptype.literals
  {
    Text.SplitJoin(p.ptype.literals, '/');
  }

  // ---------------------------------------------------------------------
  // Positional arguments

  /** The names bound by pairing the parameters at positions `lo` to `hi - 1`
      with tokens: the non-ignored ones. */
  function Paired(params: seq<Param>, ignored: set<string>, lo: nat, hi: nat): set<string>
    requires hi <= |params|
  {
    set i | lo <= i < hi && params[i].name !in ignored :: params[i].name
  }

  /** Every non-ignored parameter at positions `lo` to `hi - 1` accepts the
      token paired with it. */
  predicate Coercible(params: seq<Param>, args: seq<Token>, ignored: set<string>, lo: nat, hi: nat)
    requires hi <= |params| && hi <= |args|
  {
    forall i :: lo <= i < hi && params[i].name !in ignored ==> Coerce(params[i], args[i]).Ok?
  }

  function Min(a: nat, b: nat): nat { if a <= b then a else b }

  /** The positional loop, which pairs parameters with tokens up to the
      longer of the two, from position `i` on, with `acc` the values bound so
      far. An ignored parameter still takes its token; it just binds
      nothing. */
  function BindPositional(params: seq<Param>, args: seq<Token>, ignored: set<string>, i: nat, acc: Bindings)
    : Result<Bindings, CommandError>
    requires i <= |args|
    decreases |args| - i
  {
    if i == |args| then Ok(acc)
    else if i >= |params| then Err(Superfluous(args[i].Display()))
    else if params[i].name in ignored then BindPositional(params, args, ignored, i + 1, acc)
    else match Coerce(params[i], args[i])
      case Err(e) => Err(e)
      case Ok(v) => BindPositional(params, args, ignored, i + 1, acc[params[i].name := v])
  }

  /** The positional stage of `prepare_arguments`. */
  function Positional(params: seq<Param>, args: seq<Token>, ignored: set<string>): Result<Bindings, CommandError>
  {
    BindPositional(params, args, ignored, 0, map[])
  }

  /** A successful positional binding adds exactly the names of the
      non-ignored parameters that received a token. */
  lemma {:induction false} PositionalKeys(params: seq<Param>, args: seq<Token>, ignored: set<string>, i: nat, acc: Bindings)
    requires i <= |args|
    ensures var r := BindPositional(params, args, ignored, i, acc);
      r.Ok? ==> r.value.Keys == acc.Keys + Paired(params, ignored, Min(i, |params|), Min(|args|, |params|))
    decreases |args| - i
  {
    if i < |args| && i < |params| {
      if params[i].name in ignored {
        PositionalKeys(params, args, ignored, i + 1, acc);
      } else if Coerce(params[i], args[i]).Ok? {
        PositionalKeys(params, args, ignored, i + 1, acc[params[i].name := Coerce(params[i], args[i]).value]);
      }
    }
  }

  /** Positional binding succeeds exactly when there are no more tokens than
      parameters and every non-ignored parameter accepts its token; fewer
      tokens than parameters is not an error. */
  lemma {:induction false} PositionalAccepts(params: seq<Param>, args: seq<Token>, ignored: set<string>, i: nat, acc: Bindings)
    requires i <= |args| && i <= |params|
    ensures BindPositional(params, args, ignored, i, acc).Ok? <==>
      (|args| <= |params| || i == |args|) && Coercible(params, args, ignored, i, Min(|args|, |params|))
    decreases |args| - i
  {
    if i < |args| && i < |params| {
      if params[i].name in ignored {
        PositionalAccepts(params, args, ignored, i + 1, acc);
      } else if Coerce(params[i], args[i]).Ok? {
        PositionalAccepts(params, args, ignored, i + 1, acc[params[i].name := Coerce(params[i], args[i]).value]);
      }
    }
  }

  /** More tokens than parameters fail as superfluous, naming the first
      excess token, exactly when every earlier pairing was accepted. */
  lemma {:induction false} PositionalSuperfluous(params: seq<Param>, args: seq<Token>, ignored: set<string>, i: nat, acc: Bindings)
    requires i <= |args| && i <= |params|
    ensures var r := BindPositional(params, args, ignored, i, acc);
      r.Err? && r.error.Superfluous? <==> |args| > |params| && Coercible(params, args, ignored, i, |params|)
    ensures var r := BindPositional(params, args, ignored, i, acc);
      r.Err? && r.error.Superfluous? ==> r.error == Superfluous(args[|params|].Display())
    decreases |args| - i
  {
    if i < |args| && i < |params| {
      if params[i].name in ignored {
        PositionalSuperfluous(params, args, ignored, i + 1, acc);
      } else if Coerce(params[i], args[i]).Ok? {
        PositionalSuperfluous(params, args, ignored, i + 1, acc[params[i].name := Coerce(params[i], args[i]).value]);
      }
    }
  }

  /** Any other positional failure is the coercion error of the first
      non-ignored parameter that rejects its token. */
  lemma {:induction false} PositionalRejects(params: seq<Param>, args: seq<Token>, ignored: set<string>, i: nat, acc: Bindings)
    requires i <= |args| && i <= |params|
    ensures var r := BindPositional(params, args, ignored, i, acc);
      r.Err? && !r.error.Superfluous? ==>
        exists j :: i <= j < |args| && j < |params| && params[j].name !in ignored
                    && Coerce(params[j], args[j]) == Err(r.error)
                    && Coercible(params, args, ignored, i, j)
    decreases |args| - i
  {
    var r := BindPositional(params, args, ignored, i, acc);
    if i < |args| && i < |params| {
      if params[i].name in ignored || Coerce(params[i], args[i]).Ok? {
        var next := if params[i].name in ignored then acc else acc[params[i].name := Coerce(params[i], args[i]).value];
        PositionalRejects(params, args, ignored, i + 1, next);
        if r.Err? && !r.error.Superfluous? {
          var j :| i + 1 <= j < |args| && j < |params| && params[j].name !in ignored
                   && Coerce(params[j], args[j]) == Err(r.error)
                   && Coercible(params, args, ignored, i + 1, j);
          assert Coercible(params, args, ignored, i, j);
        }
      } else {
        assert Coercible(params, args, ignored, i, i);
      }
    }
  }

  /** With distinct parameter names, a successful positional binding maps each
      non-ignored parameter that received a token to that token's coerced
      value, and keeps everything bound before. */
  lemma {:induction false} PositionalValues(params: seq<Param>, args: seq<Token>, ignored: set<string>, i: nat, acc: Bindings)
    requires i <= |args| && Distinct(params)
    requires forall j :: i <= j < |params| ==> params[j].name !in acc
    ensures var r := BindPositional(params, args, ignored, i, acc);
      r.Ok? ==>
        (forall k :: k in acc ==> k in r.value && r.value[k] == acc[k])
        && forall j :: i <= j < |args| && j < |params| && params[j].name !in ignored ==>
             params[j].name in r.value && Coerce(params[j], args[j]) == Ok(r.value[params[j].name])
    decreases |args| - i
  {
    if i < |args| && i < |params| {
      var r := BindPositional(params, args, ignored, i, acc);
      if params[i].name in ignored {
        PositionalValues(params, args, ignored, i + 1, acc);
      } else if Coerce(params[i], args[i]).Ok? {
        var next := acc[params[i].name := Coerce(params[i], args[i]).value];
        PositionalValues(params, args, ignored, i + 1, next);
      }
    }
  }

  // ---------------------------------------------------------------------
  // Keyword arguments

  /** The names of the keyword arguments at positions `j` to `f - 1`. */
  function KeywordsBetween(kws: seq<(string, Token)>, j: nat, f: nat): set<string>
    requires f <= |kws|
  {
    set i | j <= i < f :: kws[i].0
  }

  /** The names of the keyword arguments from position `j` on. */
  function KeywordNames(kws: seq<(string, Token)>, j: nat): set<string>
  {
    KeywordsBetween(kws, j, |kws|)
  }

  /** The keyword at position `j` passes every check and is bound, so the
      stage continues with the next keyword. */
  predicate KeywordPasses(params: seq<Param>, ignored: set<string>, kws: seq<(string, Token)>, j: nat, acc: Bindings)
    requires j < |kws|
  {
    var name := kws[j].0;
    name !in ignored && name !in acc && name in Names(params) && Coerce(Named(params, name), kws[j].1).Ok?
  }

  function Extended(params: seq<Param>, ignored: set<string>, kws: seq<(string, Token)>, j: nat, acc: Bindings): Bindings
    requires j < |kws| && KeywordPasses(params, ignored, kws, j, acc)
  {
    acc[kws[j].0 := Coerce(Named(params, kws[j].0), kws[j].1).value]
  }

  /** The error raised for keyword `name` when it does not pass. The checks
      run in a fixed order: ignored name, already bound, undeclared, then
      coercion. */
  function KeywordError(params: seq<Param>, ignored: set<string>, name: string, t: Token, acc: Bindings): CommandError
    requires !(name !in ignored && name !in acc && name in Names(params) && Coerce(Named(params, name), t).Ok?)
  {
    if name in ignored then Illegal(name)
    else if name in acc then MultipleValues(name)
    else if name !in Names(params) then Unknown(name)
    else Coerce(Named(params, name), t).error
  }

  /** The `explicit_arguments` loop from position `j` on, with `acc` the values
      bound so far. */
  function BindKeywords(params: seq<Param>, ignored: set<string>, kws: seq<(string, Token)>, j: nat, acc: Bindings)
    : Result<Bindings, CommandError>
    requires j <= |kws|
    decreases |kws| - j
  {
    if j == |kws| then Ok(acc)
    else if KeywordPasses(params, ignored, kws, j, acc) then
      BindKeywords(params, ignored, kws, j + 1, Extended(params, ignored, kws, j, acc))
    else Err(KeywordError(params, ignored, kws[j].0, kws[j].1, acc))
  }

  /** A successful keyword stage adds exactly the keyword names, and each of
      them is declared, not ignored and not bound before. */
  lemma {:induction false} KeywordKeys(params: seq<Param>, ignored: set<string>, kws: seq<(string, Token)>, j: nat, acc: Bindings)
    requires j <= |kws|
    ensures var r := BindKeywords(params, ignored, kws, j, acc);
      r.Ok? ==> r.value.Keys == acc.Keys + KeywordNames(kws, j)
    ensures var r := BindKeywords(params, ignored, kws, j, acc);
      r.Ok? ==> forall i :: j <= i < |kws| ==> kws[i].0 !in ignored && kws[i].0 !in acc && kws[i].0 in Names(params)
    decreases |kws| - j
  {
    if j < |kws| && KeywordPasses(params, ignored, kws, j, acc) {
      KeywordKeys(params, ignored, kws, j + 1, Extended(params, ignored, kws, j, acc));
    }
  }

  /** A successful keyword stage never overwrites a value bound before it. */
  lemma {:induction false} KeywordsKeepBound(params: seq<Param>, ignored: set<string>, kws: seq<(string, Token)>, j: nat, acc: Bindings)
    requires j <= |kws|
    ensures var r := BindKeywords(params, ignored, kws, j, acc);
      r.Ok? ==> forall k :: k in acc ==> k in r.value && r.value[k] == acc[k]
    decreases |kws| - j
  {
    var r := BindKeywords(params, ignored, kws, j, acc);
    if j < |kws| && r.Ok? {
      KeywordsKeepBound(params, ignored, kws, j + 1, Extended(params, ignored, kws, j, acc));
    }
  }

  /** A successful keyword stage binds each keyword's coerced value under its
      own name. */
  lemma {:induction false} KeywordValues(params: seq<Param>, ignored: set<string>, kws: seq<(string, Token)>, j: nat, acc: Bindings)
    requires j <= |kws|
    ensures var r := BindKeywords(params, ignored, kws, j, acc);
      r.Ok? ==> forall i :: j <= i < |kws| ==>
        && kws[i].0 in Names(params) && kws[i].0 in r.value
        && Coerce(Named(params, kws[i].0), kws[i].1) == Ok(r.value[kws[i].0])
    decreases |kws| - j
  {
    var r := BindKeywords(params, ignored, kws, j, acc);
    if j < |kws| && r.Ok? {
      var next := Extended(params, ignored, kws, j, acc);
      KeywordValues(params, ignored, kws, j + 1, next);
      KeywordsKeepBound(params, ignored, kws, j + 1, next);
      KeywordKeys(params, ignored, kws, j + 1, next);
    }
  }

  /** A successful keyword stage has seen every name at most once. */
  lemma {:induction false} KeywordsDistinct(params: seq<Param>, ignored: set<string>, kws: seq<(string, Token)>, j: nat, acc: Bindings)
    requires j <= |kws|
    ensures BindKeywords(params, ignored, kws, j, acc).Ok? ==>
      forall a, b :: j <= a < b < |kws| ==> kws[a].0 != kws[b].0
    decreases |kws| - j
  {
    var r := BindKeywords(params, ignored, kws, j, acc);
    if j < |kws| && r.Ok? {
      var next := Extended(params, ignored, kws, j, acc);
      KeywordsDistinct(params, ignored, kws, j + 1, next);
      KeywordKeys(params, ignored, kws, j + 1, next);
      forall b | j < b < |kws|
        ensures kws[j].0 != kws[b].0
      {
        assert kws[b].0 !in next;
      }
    }
  }

  /** "Illegal argument" names a keyword that is an ignored name. */
  lemma {:induction false} KeywordIllegal(params: seq<Param>, ignored: set<string>, kws: seq<(string, Token)>, j: nat, acc: Bindings, n: string)
    requires j <= |kws|
    requires BindKeywords(params, ignored, kws, j, acc) == Err(Illegal(n))
    ensures n in ignored && n in KeywordNames(kws, j)
    decreases |kws| - j
  {
    if KeywordPasses(params, ignored, kws, j, acc) {
      KeywordIllegal(params, ignored, kws, j + 1, Extended(params, ignored, kws, j, acc), n);
    }
  }

  /** "Multiple values" names a keyword that is not ignored (that check comes
      first) and that was bound before it: positionally or by an earlier
      keyword. */
  lemma {:induction false} KeywordRepeated(params: seq<Param>, ignored: set<string>, kws: seq<(string, Token)>, j: nat, acc: Bindings, n: string)
    requires j <= |kws|
    requires BindKeywords(params, ignored, kws, j, acc) == Err(MultipleValues(n))
    ensures n !in ignored
    ensures exists b :: j <= b < |kws| && kws[b].0 == n && (n in acc || exists a :: j <= a < b && kws[a].0 == n)
    decreases |kws| - j
  {
    if KeywordPasses(params, ignored, kws, j, acc) {
      var next := Extended(params, ignored, kws, j, acc);
      KeywordRepeated(params, ignored, kws, j + 1, next, n);
      var b :| j + 1 <= b < |kws| && kws[b].0 == n && (n in next || exists a :: j + 1 <= a < b && kws[a].0 == n);
      if n !in acc && n in next {
        assert kws[j].0 == n;
      }
    }
  }

  /** "Unknown argument" names a keyword that is neither ignored nor bound
      before (those checks come first) and that the signature does not
      declare. */
  lemma {:induction false} KeywordUnknown(params: seq<Param>, ignored: set<string>, kws: seq<(string, Token)>, j: nat, acc: Bindings, n: string)
    requires j <= |kws|
    requires BindKeywords(params, ignored, kws, j, acc) == Err(Unknown(n))
    ensures n !in ignored && n !in acc && n !in Names(params) && n in KeywordNames(kws, j)
    decreases |kws| - j
  {
    if KeywordPasses(params, ignored, kws, j, acc) {
      KeywordUnknown(params, ignored, kws, j + 1, Extended(params, ignored, kws, j, acc), n);
    }
  }

  /** Any other keyword failure is the coercion error of a declared keyword
      that is neither ignored nor bound before the stage. */
  lemma {:induction false} KeywordRejected(params: seq<Param>, ignored: set<string>, kws: seq<(string, Token)>, j: nat, acc: Bindings)
    requires j <= |kws|
    requires BindKeywords(params, ignored, kws, j, acc).Err?
    requires var e := BindKeywords(params, ignored, kws, j, acc).error; !e.Illegal? && !e.MultipleValues? && !e.Unknown?
    ensures exists i ::
              && j <= i < |kws| && kws[i].0 in Names(params)
              && kws[i].0 !in ignored && kws[i].0 !in acc
              && Coerce(Named(params, kws[i].0), kws[i].1) == Err(BindKeywords(params, ignored, kws, j, acc).error)
    decreases |kws| - j
  {
    if KeywordPasses(params, ignored, kws, j, acc) {
      KeywordRejected(params, ignored, kws, j + 1, Extended(params, ignored, kws, j, acc));
    }
  }

  /** The keyword at position `a` passes every check of a stage that starts at
      position `j` with `acc` bound: its name is not ignored, bound neither
      before the stage nor by an earlier keyword, declared, and its token is
      accepted. Stated on the keyword list alone, without running the stage. */
  predicate KeywordAccepted(params: seq<Param>, ignored: set<string>, kws: seq<(string, Token)>,
                            j: nat, acc: Bindings, a: nat)
    requires j <= a < |kws|
  {
    var name := kws[a].0;
    && name !in ignored
    && name !in acc
    && name !in KeywordsBetween(kws, j, a)
    && name in Names(params)
    && Coerce(Named(params, name), kws[a].1).Ok?
  }

  /** Once keyword `j` is bound, a later keyword is seen the same way by the
      stage that starts at `j + 1`. */
  lemma AcceptedAfterStep(params: seq<Param>, ignored: set<string>, kws: seq<(string, Token)>,
                          j: nat, acc: Bindings, a: nat)
    requires j < a < |kws| && KeywordPasses(params, ignored, kws, j, acc)
    ensures var next := Extended(params, ignored, kws, j, acc);
      (kws[a].0 in acc || kws[a].0 in KeywordsBetween(kws, j, a))
      <==> (kws[a].0 in next || kws[a].0 in KeywordsBetween(kws, j + 1, a))
    ensures KeywordAccepted(params, ignored, kws, j, acc, a)
            <==> KeywordAccepted(params, ignored, kws, j + 1, Extended(params, ignored, kws, j, acc), a)
  {
    assert KeywordsBetween(kws, j, a) == KeywordsBetween(kws, j + 1, a) + {kws[j].0};
  }

  /** The keyword stage succeeds exactly when every keyword passes every
      check in turn. */
  lemma {:induction false} KeywordsSucceed(params: seq<Param>, ignored: set<string>, kws: seq<(string, Token)>,
                                           j: nat, acc: Bindings)
    requires j <= |kws|
    ensures BindKeywords(params, ignored, kws, j, acc).Ok?
            <==> forall a :: j <= a < |kws| ==> KeywordAccepted(params, ignored, kws, j, acc, a)
    decreases |kws| - j
  {
    if j < |kws| {
      assert KeywordsBetween(kws, j, j) == {};
      if KeywordPasses(params, ignored, kws, j, acc) {
        assert KeywordAccepted(params, ignored, kws, j, acc, j);
        var next, k := Extended(params, ignored, kws, j, acc), j + 1;
        KeywordsSucceed(params, ignored, kws, k, next);
        forall a | j < a < |kws|
          ensures KeywordAccepted(params, ignored, kws, j, acc, a)
                  <==> KeywordAccepted(params, ignored, kws, k, next, a)
        {
          AcceptedAfterStep(params, ignored, kws, j, acc, a);
        }
        assert BindKeywords(params, ignored, kws, j, acc) == BindKeywords(params, ignored, kws, j + 1, next);
      } else {
        assert !KeywordAccepted(params, ignored, kws, j, acc, j);
      }
    }
  }

  /** The first keyword that fails a check decides the error, and its checks
      run in order: an ignored name is illegal; otherwise a name bound before
      (by position or by an earlier keyword) has multiple values; otherwise an
      undeclared name is unknown; otherwise the error is the one coercing its
      token gives. */
  lemma {:induction false} KeywordFirstFailure(params: seq<Param>, ignored: set<string>, kws: seq<(string, Token)>,
                                               j: nat, acc: Bindings, f: nat)
    requires j <= f < |kws|
    requires forall a :: j <= a < f ==> KeywordAccepted(params, ignored, kws, j, acc, a)
    ensures var n := kws[f].0;
      n in ignored ==> BindKeywords(params, ignored, kws, j, acc) == Err(Illegal(n))
    ensures var n := kws[f].0;
      n !in ignored && (n in acc || n in KeywordsBetween(kws, j, f))
      ==> BindKeywords(params, ignored, kws, j, acc) == Err(MultipleValues(n))
    ensures var n := kws[f].0;
      n !in ignored && n !in acc && n !in KeywordsBetween(kws, j, f) && n !in Names(params)
      ==> BindKeywords(params, ignored, kws, j, acc) == Err(Unknown(n))
    ensures var n := kws[f].0;
      n !in ignored && n !in acc && n !in KeywordsBetween(kws, j, f) && n in Names(params)
      && Coerce(Named(params, n), kws[f].1).Err?
      ==> BindKeywords(params, ignored, kws, j, acc) == Err(Coerce(Named(params, n), kws[f].1).error)
    decreases f - j
  {
    assert KeywordsBetween(kws, j, j) == {};
    if j < f {
      assert KeywordAccepted(params, ignored, kws, j, acc, j);
      var next, k := Extended(params, ignored, kws, j, acc), j + 1;
      forall a | k <= a < f
        ensures KeywordAccepted(params, ignored, kws, k, next, a)
      {
        AcceptedAfterStep(params, ignored, kws, j, acc, a);
      }
      AcceptedAfterStep(params, ignored, kws, j, acc, f);
      KeywordFirstFailure(params, ignored, kws, k, next, f);
    }
  }

  // ---------------------------------------------------------------------
  // Missing arguments and context

  /** A parameter the user must supply: not ignored and without default. */
  predicate Required(p: Param, ignored: set<string>)
  {
    p.name !in ignored && !p.hasDefault
  }

  /** The "Find missing arguments" loop from position `i` on: the position of
      the first required parameter with no bound value, if any. */
  function FirstMissing(params: seq<Param>, ignored: set<string>, bound: Bindings, i: nat): (r: Option<nat>)
    requires i <= |params|
    ensures r.Some? ==> i <= r.value < |params|
    ensures r.Some? ==> Required(params[r.value], ignored) && params[r.value].name !in bound
    ensures r.Some? ==> forall j :: i <= j < r.value && Required(params[j], ignored) ==> params[j].name in bound
    ensures r.None? ==> forall j :: i <= j < |params| && Required(params[j], ignored) ==> params[j].name in bound
    decreases |params| - i
  {
    if i == |params| then None
    else if params[i].name in ignored then FirstMissing(params, ignored, bound, i + 1)
    else if params[i].name !in bound && !params[i].hasDefault then Some(i)
    else FirstMissing(params, ignored, bound, i + 1)
  }

  /** The "Set context values" loop: every context key the signature declares
      is set to its context value, overriding anything bound before. */
  function Inject(params: seq<Param>, context: Bindings, bound: Bindings): (r: Bindings)
    ensures r.Keys == bound.Keys + (context.Keys * Names(params))
    ensures forall k :: k in context && k in Names(params) ==> r[k] == context[k]
    ensures forall k :: k in bound && (k !in context || k !in Names(params)) ==> r[k] == bound[k]
  {
    bound + map k | k in context.Keys * Names(params) :: context[k]
  }

  // ---------------------------------------------------------------------
  // prepare_arguments

  /** `prepare_arguments(command, arguments, explicit_arguments, context)`. */
  function Prepare(params: seq<Param>, ignored: set<string>, args: seq<Token>,
                   kws: seq<(string, Token)>, context: Bindings): Result<Bindings, CommandError>
  {
    match Positional(params, args, ignored)
    case Err(e) => Err(e)
    case Ok(positional) =>
      match BindKeywords(params, ignored, kws, 0, positional)
      case Err(e) => Err(e)
      case Ok(bound) =>
        match FirstMissing(params, ignored, bound, 0)
        case Some(i) => Err(NotProvided(params[i].name, Expected(params[i].ptype)))
        case None => Ok(Inject(params, context, bound))
  }

  /** What a successful `prepare_arguments` guarantees the handler: every
      required parameter has a value, only declared parameters do, the
      declared context keys carry their context values (overriding the user),
      undeclared context keys are absent, no ignored name was set from user
      input, and no keyword names a parameter that took a positional token.
      The bound names are exactly the non-ignored parameters that took a
      token, the keywords and the declared context keys: a defaulted
      parameter nobody supplied is left unbound, so the handler's own default
      applies. */
  lemma PrepareGuarantees(params: seq<Param>, ignored: set<string>, args: seq<Token>,
                          kws: seq<(string, Token)>, context: Bindings)
    ensures var r := Prepare(params, ignored, args, kws, context);
      r.Ok? ==> forall i :: 0 <= i < |params| && Required(params[i], ignored) ==> params[i].name in r.value
    ensures var r := Prepare(params, ignored, args, kws, context);
      r.Ok? ==> r.value.Keys <= Names(params)
    ensures var r := Prepare(params, ignored, args, kws, context);
      r.Ok? ==> forall k :: k in context ==> (k in r.value <==> k in Names(params))
    ensures var r := Prepare(params, ignored, args, kws, context);
      r.Ok? ==> forall k :: k in context && k in Names(params) ==> r.value[k] == context[k]
    ensures var r := Prepare(params, ignored, args, kws, context);
      r.Ok? ==> forall k :: k in r.value && k in ignored ==> k in context
    ensures var r := Prepare(params, ignored, args, kws, context);
      r.Ok? ==> KeywordNames(kws, 0) !! Paired(params, ignored, 0, Min(|args|, |params|))
    ensures var r := Prepare(params, ignored, args, kws, context);
      r.Ok? ==> r.value.Keys == Paired(params, ignored, 0, Min(|args|, |params|)) + KeywordNames(kws, 0)
                                + (context.Keys * Names(params))
  {
    PositionalKeys(params, args, ignored, 0, map[]);
    if Positional(params, args, ignored).Ok? {
      KeywordKeys(params, ignored, kws, 0, Positional(params, args, ignored).value);
    }
  }

  /** A successful `prepare_arguments` passes each non-ignored parameter that
      took a positional token the coercion of that token, unless the context
      overrides its name. */
  lemma PreparePositionalValues(params: seq<Param>, ignored: set<string>, args: seq<Token>,
                                kws: seq<(string, Token)>, context: Bindings)
    requires Distinct(params)
    ensures var r := Prepare(params, ignored, args, kws, context);
      r.Ok? ==> forall k :: 0 <= k < |args| && k < |params| && params[k].name !in ignored && params[k].name !in context ==>
        params[k].name in r.value && Coerce(params[k], args[k]) == Ok(r.value[params[k].name])
  {
    var p := Positional(params, args, ignored);
    PositionalValues(params, args, ignored, 0, map[]);
    if p.Ok? {
      KeywordsKeepBound(params, ignored, kws, 0, p.value);
    }
  }

  /** A successful `prepare_arguments` passes each keyword the coercion of its
      token for the declared parameter it names, unless the context overrides
      the name. */
  lemma PrepareKeywordValues(params: seq<Param>, ignored: set<string>, args: seq<Token>,
                             kws: seq<(string, Token)>, context: Bindings)
    ensures var r := Prepare(params, ignored, args, kws, context);
      r.Ok? ==> forall i :: 0 <= i < |kws| && kws[i].0 !in context ==>
        && kws[i].0 in Names(params) && kws[i].0 in r.value
        && Coerce(Named(params, kws[i].0), kws[i].1) == Ok(r.value[kws[i].0])
  {
    var p := Positional(params, args, ignored);
    if p.Ok? {
      KeywordValues(params, ignored, kws, 0, p.value);
    }
  }

  // ---------------------------------------------------------------------
  // What prepare_arguments promises its caller

  /** A parameter at position `k` was given a value by the user: a token
      reached its position, or a keyword named it. */
  predicate Supplied(params: seq<Param>, args: seq<Token>, kws: seq<(string, Token)>, k: nat)
    requires k < |params|
  {
    k < |args| || params[k].name in KeywordNames(kws, 0)
  }

  lemma PairedMember(params: seq<Param>, ignored: set<string>, n: nat, k: nat)
    requires Distinct(params) && n <= |params| && k < |params|
    ensures params[k].name in Paired(params, ignored, 0, n) <==> k < n && params[k].name !in ignored
  {
    if params[k].name in Paired(params, ignored, 0, n) {
      var i :| 0 <= i < n && params[i].name !in ignored && params[i].name == params[k].name;
      assert i == k;
    }
  }

  /** With distinct parameter names, a successful `prepare_arguments` leaves
      unbound every parameter the user did not supply and the context does
      not name, and every ignored parameter the context does not name, even
      one that took a token. */
  lemma PrepareLeavesUnsupplied(params: seq<Param>, ignored: set<string>, args: seq<Token>,
                                kws: seq<(string, Token)>, context: Bindings)
    requires Distinct(params)
    ensures var r := Prepare(params, ignored, args, kws, context);
      r.Ok? ==> forall k :: 0 <= k < |params| && !Supplied(params, args, kws, k) && params[k].name !in context ==>
        params[k].name !in r.value
    ensures var r := Prepare(params, ignored, args, kws, context);
      r.Ok? ==> forall k :: 0 <= k < |params| && params[k].name in ignored && params[k].name !in context ==>
        params[k].name !in r.value
  {
    var r := Prepare(params, ignored, args, kws, context);
    PrepareGuarantees(params, ignored, args, kws, context);
    var n := Min(|args|, |params|);
    forall k | 0 <= k < |params|
      ensures params[k].name in Paired(params, ignored, 0, n) <==> k < n && params[k].name !in ignored
    {
      PairedMember(params, ignored, n, k);
    }
    if r.Ok? {
      PositionalKeys(params, args, ignored, 0, map[]);
      KeywordKeys(params, ignored, kws, 0, Positional(params, args, ignored).value);
    }
  }

  /** The positional stage runs to completion before any keyword is looked
      at: when every parameter before position `j` accepts its token and the
      non-ignored parameter at `j` rejects its own, `prepare_arguments`
      reports that coercion error, whatever the keywords and context are. */
  lemma PrepareFirstRejected(params: seq<Param>, ignored: set<string>, args: seq<Token>,
                             kws: seq<(string, Token)>, context: Bindings, j: nat)
    requires j < |args| && j < |params| && params[j].name !in ignored
    requires Coercible(params, args, ignored, 0, j)
    requires Coerce(params[j], args[j]).Err?
    ensures Prepare(params, ignored, args, kws, context) == Err(Coerce(params[j], args[j]).error)
  {
    PositionalAccepts(params, args, ignored, 0, map[]);
    PositionalSuperfluous(params, args, ignored, 0, map[]);
    PositionalRejects(params, args, ignored, 0, map[]);
    var r := Positional(params, args, ignored);
    assert !Coercible(params, args, ignored, 0, Min(|args|, |params|));
    if |args| > |params| {
      assert !Coercible(params, args, ignored, 0, |params|);
    }
    var i :| 0 <= i < |args| && i < |params| && params[i].name !in ignored
             && Coerce(params[i], args[i]) == Err(r.error)
             && Coercible(params, args, ignored, 0, i);
    assert i == j;
  }

  /** Once the positional stage succeeds, the first keyword that fails a
      check decides the error, ahead of any missing parameter: an ignored
      name is illegal; otherwise a name already bound by position or by an
      earlier keyword has multiple values; otherwise an undeclared name is
      unknown; otherwise the error is the one coercing its token gives. */
  lemma PrepareFirstKeywordFailure(params: seq<Param>, ignored: set<string>, args: seq<Token>,
                                   kws: seq<(string, Token)>, context: Bindings, f: nat)
    requires f < |kws|
    requires Positional(params, args, ignored).Ok?
    requires forall a :: 0 <= a < f ==> KeywordAccepted(params, ignored, kws, 0, Positional(params, args, ignored).value, a)
    ensures var n := kws[f].0;
      n in ignored ==> Prepare(params, ignored, args, kws, context) == Err(Illegal(n))
    ensures var n, paired := kws[f].0, Paired(params, ignored, 0, Min(|args|, |params|));
      n !in ignored && (n in paired || n in KeywordsBetween(kws, 0, f))
      ==> Prepare(params, ignored, args, kws, context) == Err(MultipleValues(n))
    ensures var n, paired := kws[f].0, Paired(params, ignored, 0, Min(|args|, |params|));
      n !in ignored && n !in paired && n !in KeywordsBetween(kws, 0, f) && n !in Names(params)
      ==> Prepare(params, ignored, args, kws, context) == Err(Unknown(n))
    ensures var n, paired := kws[f].0, Paired(params, ignored, 0, Min(|args|, |params|));
      n !in ignored && n !in paired && n !in KeywordsBetween(kws, 0, f) && n in Names(params)
      && Coerce(Named(params, n), kws[f].1).Err?
      ==> Prepare(params, ignored, args, kws, context) == Err(Coerce(Named(params, n), kws[f].1).error)
  {
    var positional := Positional(params, args, ignored).value;
    PositionalKeys(params, args, ignored, 0, map[]);
    KeywordFirstFailure(params, ignored, kws, 0, positional, f);
  }

  /** Once positional and keyword binding succeed, `prepare_arguments` fails
      exactly when some required parameter was not supplied, and then it
      names the first such parameter in declaration order with its kind. */
  lemma PrepareReportsFirstMissing(params: seq<Param>, ignored: set<string>, args: seq<Token>,
                                   kws: seq<(string, Token)>, context: Bindings)
    requires Distinct(params)
    requires Positional(params, args, ignored).Ok?
    requires BindKeywords(params, ignored, kws, 0, Positional(params, args, ignored).value).Ok?
    ensures Prepare(params, ignored, args, kws, context).Err? <==>
      exists k :: 0 <= k < |params| && Required(params[k], ignored) && !Supplied(params, args, kws, k)
    ensures Prepare(params, ignored, args, kws, context).Err? ==>
      exists k ::
        && 0 <= k < |params| && Required(params[k], ignored) && !Supplied(params, args, kws, k)
        && (forall j :: 0 <= j < k && Required(params[j], ignored) ==> Supplied(params, args, kws, j))
        && Prepare(params, ignored, args, kws, context) == Err(NotProvided(params[k].name, Expected(params[k].ptype)))
  {
    var positional := Positional(params, args, ignored).value;
    var bound := BindKeywords(params, ignored, kws, 0, positional).value;
    PositionalAccepts(params, args, ignored, 0, map[]);
    var n := Min(|args|, |params|);
    PositionalKeys(params, args, ignored, 0, map[]);
    KeywordKeys(params, ignored, kws, 0, positional);
    assert bound.Keys == Paired(params, ignored, 0, n) + KeywordNames(kws, 0);
    forall k | 0 <= k < |params| && Required(params[k], ignored)
      ensures params[k].name in bound <==> Supplied(params, args, kws, k)
    {
      PairedMember(params, ignored, n, k);
    }
  }

  /** Supplying, in order, one token for every parameter up to the last
      required one binds successfully, provided each non-ignored parameter
      among them accepts its token; an ignored parameter takes its token and
      binds nothing. */
  lemma RequiredPrefixSucceeds(params: seq<Param>, ignored: set<string>, args: seq<Token>, context: Bindings)
    requires |args| <= |params|
    requires Coercible(params, args, ignored, 0, |args|)
    requires forall i :: |args| <= i < |params| ==> !Required(params[i], ignored)
    ensures Prepare(params, ignored, args, [], context).Ok?
  {
    PositionalAccepts(params, args, ignored, 0, map[]);
    var bound := Positional(params, args, ignored).value;
    PositionalKeys(params, args, ignored, 0, map[]);
    assert BindKeywords(params, ignored, [], 0, bound) == Ok(bound);
    forall i | 0 <= i < |args| && params[i].name !in ignored
      ensures params[i].name in bound
    {
      assert params[i].name in Paired(params, ignored, 0, |args|);
    }
  }

  /** One token short: when the parameter right after the supplied tokens is
      required, binding fails naming that parameter, whether or not ignored
      parameters come before it. */
  lemma OneShortReportsNext(params: seq<Param>, ignored: set<string>, args: seq<Token>, context: Bindings)
    requires Distinct(params)
    requires |args| < |params| && Required(params[|args|], ignored)
    requires Coercible(params, args, ignored, 0, |args|)
    ensures Prepare(params, ignored, args, [], context)
            == Err(NotProvided(params[|args|].name, Expected(params[|args|].ptype)))
  {
    var n := |args|;
    PositionalAccepts(params, args, ignored, 0, map[]);
    var bound := Positional(params, args, ignored).value;
    PositionalKeys(params, args, ignored, 0, map[]);
    assert bound.Keys == Paired(params, ignored, 0, n);
    assert BindKeywords(params, ignored, [], 0, bound) == Ok(bound);
    PairedMember(params, ignored, n, n);
    forall j | 0 <= j < n && params[j].name !in ignored
      ensures params[j].name in bound
    {
      PairedMember(params, ignored, n, j);
    }
    var m := FirstMissing(params, ignored, bound, 0);
    assert m == Some(n);
  }

  /** Too many tokens: once every parameter has accepted its token, the next
      token is reported as superfluous, whatever keywords and context are. */
  lemma TooManyReportsSuperfluous(params: seq<Param>, ignored: set<string>, args: seq<Token>,
                                  kws: seq<(string, Token)>, context: Bindings)
    requires |args| > |params|
    requires Coercible(params, args, ignored, 0, |params|)
    ensures Prepare(params, ignored, args, kws, context) == Err(Superfluous(args[|params|].Display()))
  {
    PositionalSuperfluous(params, args, ignored, 0, map[]);
  }

  /** An ignored parameter still takes a positional token: with
      `(event, text: str)` and one STRING token, the token goes to `event`,
      binds nothing, and `text` is reported missing. */
  lemma IgnoredParameterTakesToken()
    ensures var params := [Param("event", StringParam, false), Param("text", StringParam, false)];
      Prepare(params, {"event"}, [Quoted("hi")], [], map[]) == Err(NotProvided("text", STRING))
  {
    var params := [Param("event", StringParam, false), Param("text", StringParam, false)];
    assert Positional(params, [Quoted("hi")], {"event"}) == Ok(map[]);
  }
}

=== FILE: chat.dfy ===
/** The chat-side values the dispatcher passes along: the triggering message
    event and the invoking user as the user store returns it. */
module Chat {

  /** A `MessageEvent`, reduced to what the dispatcher reads from it. */
  datatype Event = Event(messageId: int, userId: int, userName: string)

  /** A `prisma.models.User` with its groups included, reduced to the group
      names. */
  datatype User = User(id: int, name: string, groups: set<string>)
}

=== FILE: command_tree.dfy ===
/** The command tree and the walk (`split_arguments`) that resolves the
    leading FLAG tokens of a command against it. */
module CommandTree {
  import opened Results
  import opened Tokens
  import opened Signatures

  /** A `CommandTree`: a group maps flag names to subtrees, a leaf is a
      handler. The root of the tree is itself a group's map. */
  datatype Node = Group(children: map<string, Node>) | Leaf(handler: Handler)

  /** The three shapes `split_arguments` can return:
      - `Reached`: `(leaf, remaining tokens)`;
      - `Missing`: `(group, unmatched name)`;
      - `Incomplete`: `(group, None)`. */
  datatype Walked =
    | Reached(handler: Handler, rest: seq<Token>)
    | Missing(group: map<string, Node>, name: string)
    | Incomplete(group: map<string, Node>)

  /** `split_arguments` started at the group `g`: descend while the next token
      is a FLAG naming a key of the current group; stop at the first leaf. */
  function Walk(g: map<string, Node>, tokens: seq<Token>): (r: Walked)
    ensures r.Reached? ==> |r.rest| < |tokens| && r.rest == tokens[|tokens| - |r.rest|..]
    ensures r.Missing? ==> r.name !in r.group
    ensures r.Missing? ==> exists i :: 0 <= i < |tokens| && tokens[i] == Flag(r.name)
    decreases |tokens|
  {
    if |tokens| == 0 || !tokens[0].Flag? then Incomplete(g)
    else if tokens[0].name !in g then Missing(g, tokens[0].name)
    else match g[tokens[0].name]
      case Leaf(h) => Reached(h, tokens[1..])
      case Group(c) =>
        var r := Walk(c, tokens[1..]);
        assert r.Missing? ==> exists i :: 0 <= i < |tokens| && tokens[i] == Flag(r.name) by {
          if r.Missing? {
            var i :| 0 <= i < |tokens[1..]| && tokens[1..][i] == Flag(r.name);
            assert tokens[i + 1] == Flag(r.name);
          }
        }
        r
  }

  // ---------------------------------------------------------------------
  // An independent description of where a run of flags leads.

  /** The node reached from group `g` by following `path` key by key; `None`
      when a key is absent or the path tries to continue below a leaf. */
  function Lookup(g: map<string, Node>, path: seq<string>): Option<Node>
    decreases |path|
  {
    if path == [] then Some(Group(g))
    else if path[0] !in g then None
    else match g[path[0]]
      case Leaf(h) => if |path| == 1 then Some(Leaf(h)) else None
      case Group(c) => Lookup(c, path[1..])
  }

  predicate AllFlags(tokens: seq<Token>)
  {
    forall i :: 0 <= i < |tokens| ==> tokens[i].Flag?
  }

  /** The names of a run of FLAG tokens. */
  function Path(tokens: seq<Token>): (p: seq<string>)
    requires AllFlags(tokens)
    ensures |p| == |tokens|
    ensures forall i :: 0 <= i < |tokens| ==> p[i] == tokens[i].name
  {
    if tokens == [] then [] else [tokens[0].name] + Path(tokens[1..])
  }

  /** The first `k` tokens are flags and, read as a path from `g`, they lead
      to `n`. */
  predicate At(g: map<string, Node>, tokens: seq<Token>, k: nat, n: Node)
  {
    k <= |tokens| && AllFlags(tokens[..k]) && Lookup(g, Path(tokens[..k])) == Some(n)
  }

  lemma AtStart(g: map<string, Node>, tokens: seq<Token>)
    ensures At(g, tokens, 0, Group(g))
  {
    assert Path(tokens[..0]) == [];
  }

  /** One step down: a path through the child group `c` of `g`, extended in
      front by the flag that names `c`. */
  lemma AtStep(g: map<string, Node>, tokens: seq<Token>, k: nat, n: Node)
    requires |tokens| > 0 && tokens[0].Flag? && tokens[0].name in g && g[tokens[0].name].Group?
    ensures At(g, tokens, k + 1, n) <==> At(g[tokens[0].name].children, tokens[1..], k, n)
  {
    if k + 1 <= |tokens| {
      assert tokens[..k + 1][1..] == tokens[1..][..k];
      if AllFlags(tokens[..k + 1]) {
        var p := Path(tokens[..k + 1]);
        assert p == [tokens[0].name] + Path(tokens[1..][..k]);
        assert p[1..] == Path(tokens[1..][..k]);
      }
      assert tokens[..k + 1] == [tokens[0]] + tokens[1..][..k];
    }
  }

  /** The walk is complete with respect to `Lookup`: a flag prefix that leads
      to a group hands the rest of the walk to that group. */
  lemma {:induction false} WalkDescends(g: map<string, Node>, tokens: seq<Token>, k: nat, c: map<string, Node>)
    requires At(g, tokens, k, Group(c))
    ensures Walk(g, tokens) == Walk(c, tokens[k..])
    decreases k
  {
    if k > 0 {
      assert tokens[..k][0] == tokens[0];
      var p := Path(tokens[..k]);
      assert p[0] == tokens[0].name;
      var child := g[tokens[0].name];
      assert child.Group?;
      AtStep(g, tokens, k - 1, Group(c));
      WalkDescends(child.children, tokens[1..], k - 1, c);
      assert tokens[1..][k - 1..] == tokens[k..];
    }
  }

  /** A flag prefix that leads to a leaf is exactly what the walk consumes. */
  lemma {:induction false} WalkFindsLeaf(g: map<string, Node>, tokens: seq<Token>, k: nat, h: Handler)
    requires At(g, tokens, k, Leaf(h))
    ensures Walk(g, tokens) == Reached(h, tokens[k..])
    decreases k
  {
    assert k > 0;
    assert tokens[..k][0] == tokens[0];
    var p := Path(tokens[..k]);
    assert p[0] == tokens[0].name;
    var child := g[tokens[0].name];
    if child.Leaf? {
      assert |p| == 1;
    } else {
      AtStep(g, tokens, k - 1, Leaf(h));
      WalkFindsLeaf(child.children, tokens[1..], k - 1, h);
      assert tokens[1..][k - 1..] == tokens[k..];
    }
  }

  /** A flag whose name is not a key of the group the prefix before it leads
      to is reported together with that group. */
  lemma WalkReportsMiss(g: map<string, Node>, tokens: seq<Token>, k: nat, c: map<string, Node>)
    requires At(g, tokens, k, Group(c))
    requires k < |tokens| && tokens[k].Flag? && tokens[k].name !in c
    ensures Walk(g, tokens) == Missing(c, tokens[k].name)
  {
    WalkDescends(g, tokens, k, c);
  }

  /** Running out of tokens, or meeting a token that is not a FLAG, while on a
      group reports that group with no name. */
  lemma WalkStopsOnGroup(g: map<string, Node>, tokens: seq<Token>, k: nat, c: map<string, Node>)
    requires At(g, tokens, k, Group(c))
    requires k == |tokens| || !tokens[k].Flag?
    ensures Walk(g, tokens) == Incomplete(c)
  {
    WalkDescends(g, tokens, k, c);
  }

  /** The walk is sound with respect to `Lookup`: every result it returns is
      explained by a flag prefix of the tokens. */
  lemma {:induction false} WalkSound(g: map<string, Node>, tokens: seq<Token>)
    ensures Walk(g, tokens).Reached? ==>
      At(g, tokens, |tokens| - |Walk(g, tokens).rest|, Leaf(Walk(g, tokens).handler))
    ensures Walk(g, tokens).Missing? ==>
      exists k: nat :: k < |tokens| && At(g, tokens, k, Group(Walk(g, tokens).group))
                  && tokens[k] == Flag(Walk(g, tokens).name)
    ensures Walk(g, tokens).Incomplete? ==>
      exists k: nat :: At(g, tokens, k, Group(Walk(g, tokens).group)) && (k == |tokens| || !tokens[k].Flag?)
    decreases |tokens|
  {
    AtStart(g, tokens);
    if |tokens| == 0 || !tokens[0].Flag? {
    } else if tokens[0].name !in g {
    } else {
      var child := g[tokens[0].name];
      if child.Leaf? {
        assert tokens[..1] == [tokens[0]];
        assert Path(tokens[..1]) == [tokens[0].name];
      } else {
        var r := Walk(child.children, tokens[1..]);
        WalkSound(child.children, tokens[1..]);
        match r
        case Reached(h, rest) =>
          var k := |tokens[1..]| - |rest|;
          AtStep(g, tokens, k, Leaf(h));
        case Missing(grp, name) =>
          var k: nat :| k < |tokens[1..]| && At(child.children, tokens[1..], k, Group(grp))
                   && tokens[1..][k] == Flag(name);
          AtStep(g, tokens, k, Group(grp));
          assert tokens[k + 1] == Flag(name);
        case Incomplete(grp) =>
          var k: nat :| At(child.children, tokens[1..], k, Group(grp))
                   && (k == |tokens[1..]| || !tokens[1..][k].Flag?);
          AtStep(g, tokens, k, Group(grp));
      }
    }
  }

  // ---------------------------------------------------------------------
  // A group strictly below another is never equal to it.

  /** Height of a tree: leaves are 0, a group is one above its tallest child. */
  ghost function Height(n: Node): nat
    decreases n, 1
  {
    match n
    case Leaf(_) => 0
    case Group(m) => 1 + MaxHeight(m, m.Keys)
  }

  ghost function MaxHeight(m: map<string, Node>, keys: set<string>): (h: nat)
    requires keys <= m.Keys
    ensures forall k :: k in keys ==> Height(m[k]) <= h
    decreases Group(m), 0, |keys|
  {
    if keys == {} then 0
    else
      var k :| k in keys;
      var rest := MaxHeight(m, keys - {k});
      if Height(m[k]) > rest then Height(m[k]) else rest
  }

  lemma {:induction false} LookupLowers(g: map<string, Node>, path: seq<string>, n: Node)
    requires |path| > 0 && Lookup(g, path) == Some(n)
    ensures Height(n) < Height(Group(g))
    decreases |path|
  {
    var child := g[path[0]];
    assert Height(child) <= MaxHeight(g, g.Keys);
    if |path| > 1 {
      LookupLowers(child.children, path[1..], n);
    }
  }

  /** Any group reached by a non-empty flag prefix differs from the group the
      walk started at; this is what makes `tree == self.tree` a test for "the
      miss happened at the top level". */
  lemma BelowIsNotRoot(g: map<string, Node>, tokens: seq<Token>, k: nat, c: map<string, Node>)
    requires k > 0 && At(g, tokens, k, Group(c))
    ensures c != g
  {
    LookupLowers(g, Path(tokens[..k]), Group(c));
  }
}

=== FILE: dispatcher.dfy ===
/** `CommandDispatcher.invoke` and `CommandDispatcher.handle`: from the
    tokenizer's output to the reply the room is sent. The trick and
    permission tables are the database's answers, passed in as maps; the
    handler is an opaque function from its bound arguments to what it
    returns or raises. */
module Dispatcher {
  import opened Results
  import opened Tokens
  import opened Signatures
  import opened CommandTree
  import opened Errors
  import opened Binding
  import opened Permissions
  import opened Chat

  /** The package-level constants `ADMIN_GROUP`, `COMMAND_FUNCTION_SUFFIX`
      and `IGNORED_PARAMETERS`. */
  datatype Config = Config(admin: string, suffix: string, ignored: set<string>)

  /** What the database answers: trick name to body, and command name to the
      groups allowed to run it. */
  datatype Store = Store(tricks: map<string, string>, permissions: map<string, set<string>>)

  /** The ways `invoke` ends. */
  datatype Invoked =
      /** returns `None`: the first token is not a FLAG */
    | NoReply
      /** reading the first token of an empty token list raises `IndexError` */
    | Fault
      /** returns a trick's body */
    | TrickBody(body: string)
      /** raises a `CommandError` */
    | Raise(error: CommandError)
      /** awaits the handler with these keyword arguments */
    | Call(handler: Handler, arguments: Bindings)

  /** The context `invoke` hands to `prepare_arguments`. */
  function Context(event: Event, user: User): Bindings
  {
    map["event" := EventArg(event), "current_user" := UserArg(user)]
  }

  /** `invoke`: the outcome for the positional and keyword tokens of one
      command, sent by `user` in `event`. */
  function Invoke(cfg: Config, root: map<string, Node>, store: Store, event: Event, user: User,
                  full: seq<Token>, kws: seq<(string, Token)>): Invoked
  {
    if |full| == 0 then Fault
    else if !full[0].Flag? then NoReply
    else
      match Walk(root, full)
      case Missing(g, name) =>
        if name in store.tricks then TrickBody(store.tricks[name])
        else if g == root then Raise(NoCommand(name))
        else Raise(NoSubcommand(SpacedNames(full[..|full| - 1]), name, g.Keys))
      case Incomplete(g) =>
        Raise(Subcommands(SpacedNames(full), g.Keys))
      case Reached(h, rest) =>
        match CheckPermissions(cfg.admin, user.groups, AllowedGroups(store.permissions, CanonicalName(h.name, cfg.suffix)))
        case Fail(e) => Raise(e)
        case Pass =>
          match Prepare(h.params, cfg.ignored, rest, kws, Context(event, user))
          case Err(e) => Raise(e)
          case Ok(arguments) => Call(h, arguments)
  }

  /** What each way of ending says about the input: an empty token list is a
      fault and a non-FLAG first token gets no reply; a trick reply is the
      body of a trick named by one of the flags; a call runs a handler that a
      flag prefix leads to, that the user may run, with the binding of the
      tokens after that prefix. */
  lemma InvokeOutcomes(cfg: Config, root: map<string, Node>, store: Store, event: Event, user: User,
                       full: seq<Token>, kws: seq<(string, Token)>)
    ensures Invoke(cfg, root, store, event, user, full, kws).Fault? <==> |full| == 0
    ensures Invoke(cfg, root, store, event, user, full, kws).NoReply? <==> |full| > 0 && !full[0].Flag?
    ensures var r := Invoke(cfg, root, store, event, user, full, kws);
      r.TrickBody? ==>
        exists i :: 0 <= i < |full| && full[i].Flag? && full[i].name in store.tricks
                    && r.body == store.tricks[full[i].name]
    ensures var r := Invoke(cfg, root, store, event, user, full, kws);
      r.Call? ==>
        exists k: nat ::
          && At(root, full, k, Leaf(r.handler))
          && CheckPermissions(cfg.admin, user.groups,
               AllowedGroups(store.permissions, CanonicalName(r.handler.name, cfg.suffix))).Pass?
          && Prepare(r.handler.params, cfg.ignored, full[k..], kws, Context(event, user)) == Ok(r.arguments)
  {
    WalkSound(root, full);
  }

  /** A flag that misses at any depth is answered by the trick of that name
      when there is one, before any error is considered. */
  lemma TrickAnswersMiss(cfg: Config, root: map<string, Node>, store: Store, event: Event, user: User,
                         full: seq<Token>, kws: seq<(string, Token)>, k: nat, c: map<string, Node>)
    requires At(root, full, k, Group(c))
    requires k < |full| && full[k].Flag? && full[k].name !in c
    requires full[k].name in store.tricks
    ensures Invoke(cfg, root, store, event, user, full, kws) == TrickBody(store.tricks[full[k].name])
  {
    WalkReportsMiss(root, full, k, c);
    if k > 0 {
      assert full[..k][0] == full[0];
    }
  }

  /** A first flag that is no top-level command, and no trick, is reported as
      "no command". */
  lemma MissAtTopLevel(cfg: Config, root: map<string, Node>, store: Store, event: Event, user: User,
                       full: seq<Token>, kws: seq<(string, Token)>)
    requires |full| > 0 && full[0].Flag? && full[0].name !in root && full[0].name !in store.tricks
    ensures Invoke(cfg, root, store, event, user, full, kws) == Raise(NoCommand(full[0].name))
  {
  }

  /** A flag that misses below the top level, and is no trick, is reported as
      "no subcommand" of its group. The parent name shown is every token but
      the last, so it includes the missing name itself whenever more tokens
      follow it. */
  lemma MissBelowTopLevel(cfg: Config, root: map<string, Node>, store: Store, event: Event, user: User,
                          full: seq<Token>, kws: seq<(string, Token)>, k: nat, c: map<string, Node>)
    requires k > 0 && At(root, full, k, Group(c))
    requires k < |full| && full[k].Flag? && full[k].name !in c && full[k].name !in store.tricks
    ensures Invoke(cfg, root, store, event, user, full, kws)
            == Raise(NoSubcommand(SpacedNames(full[..|full| - 1]), full[k].name, c.Keys))
  {
    WalkReportsMiss(root, full, k, c);
    BelowIsNotRoot(root, full, k, c);
    assert full[..k][0] == full[0];
  }

  /** Ending on a group lists its subcommands and never consults the tricks. */
  lemma IncompleteListsSubcommands(cfg: Config, root: map<string, Node>, store: Store, event: Event, user: User,
                                   full: seq<Token>, kws: seq<(string, Token)>, k: nat, c: map<string, Node>)
    requires |full| > 0 && full[0].Flag?
    requires At(root, full, k, Group(c)) && (k == |full| || !full[k].Flag?)
    ensures Invoke(cfg, root, store, event, user, full, kws) == Raise(Subcommands(SpacedNames(full), c.Keys))
  {
    WalkStopsOnGroup(root, full, k, c);
  }

  /** Reaching a leaf checks permissions before binding: a user outside the
      allowed groups is refused whatever the arguments are. */
  lemma PermissionBeforeBinding(cfg: Config, root: map<string, Node>, store: Store, event: Event, user: User,
                                full: seq<Token>, kws: seq<(string, Token)>, k: nat, h: Handler)
    requires At(root, full, k, Leaf(h))
    requires CheckPermissions(cfg.admin, user.groups,
               AllowedGroups(store.permissions, CanonicalName(h.name, cfg.suffix))).Fail?
    ensures Invoke(cfg, root, store, event, user, full, kws)
            == Raise(Forbidden(AllowedGroups(store.permissions, CanonicalName(h.name, cfg.suffix))))
  {
    WalkFindsLeaf(root, full, k, h);
    assert full[..k][0] == full[0];
  }

  /** Once permitted, a leaf's outcome is exactly the binding of the tokens
      after the flags that reached it. */
  lemma LeafBindsRest(cfg: Config, root: map<string, Node>, store: Store, event: Event, user: User,
                      full: seq<Token>, kws: seq<(string, Token)>, k: nat, h: Handler)
    requires At(root, full, k, Leaf(h))
    requires CheckPermissions(cfg.admin, user.groups,
               AllowedGroups(store.permissions, CanonicalName(h.name, cfg.suffix))).Pass?
    ensures Invoke(cfg, root, store, event, user, full, kws) ==
      match Prepare(h.params, cfg.ignored, full[k..], kws, Context(event, user))
      case Ok(arguments) => Call(h, arguments)
      case Err(e) => Raise(e)
  {
    WalkFindsLeaf(root, full, k, h);
    assert full[..k][0] == full[0];
  }

  // ---------------------------------------------------------------------
  // handle

  /** What `parse_arguments` gives back: a parse error, or the positional
      tokens and the keyword tokens in order. */
  datatype Parsed = ParseFailed(message: string) | Tokenized(positional: seq<Token>, keywords: seq<(string, Token)>)

  /** What awaiting a handler produces. */
  datatype HandlerResult =
    | Returns(message: string)
    | ReturnsTo(message: string, replyTo: int)
    | ReturnsOther
    | RaisesCommandError(message: string)
    | RaisesOther

  /** What is sent: plain text, or the message of a `CommandError`. */
  datatype Body = Plain(text: string) | Error(error: CommandError)

  /** The end of one `handle` call. */
  datatype Delivery =
    | Silent
      /** an exception other than `CommandError`/`ParseError` leaves `handle` */
    | Crashed
    | Send(body: Body, replyTo: int)

  /** `handle`: what one command message leads to, once the user store has
      answered with `user`. */
  function Handle(cfg: Config, root: map<string, Node>, store: Store, event: Event, user: User,
                  parsed: Parsed, run: (Handler, Bindings) -> HandlerResult): (r: Delivery)
    ensures parsed.ParseFailed? ==> r == Send(Plain("Parse error: " + parsed.message), event.messageId)
    ensures r.Send? && r.body.Error? ==> r.replyTo == event.messageId
    ensures r.Send? && r.replyTo != event.messageId ==>
      parsed.Tokenized?
      && var i := Invoke(cfg, root, store, event, user, parsed.positional, parsed.keywords);
         i.Call? && run(i.handler, i.arguments) == ReturnsTo(r.body.text, r.replyTo)
    ensures r.Silent? <==>
      parsed.Tokenized?
      && var i := Invoke(cfg, root, store, event, user, parsed.positional, parsed.keywords);
         i.NoReply? || (i.Call? && run(i.handler, i.arguments).ReturnsOther?)
    ensures parsed.Tokenized? ==>
      var i := Invoke(cfg, root, store, event, user, parsed.positional, parsed.keywords);
      i.TrickBody? ==> r == Send(Plain(i.body), event.messageId)
    ensures parsed.Tokenized? ==>
      var i := Invoke(cfg, root, store, event, user, parsed.positional, parsed.keywords);
      i.Raise? ==> r == Send(Error(i.error), event.messageId)
    ensures parsed.Tokenized? ==>
      var i := Invoke(cfg, root, store, event, user, parsed.positional, parsed.keywords);
      i.Call? && run(i.handler, i.arguments).Returns?
      ==> r == Send(Plain(run(i.handler, i.arguments).message), event.messageId)
    ensures parsed.Tokenized? ==>
      var i := Invoke(cfg, root, store, event, user, parsed.positional, parsed.keywords);
      i.Call? && run(i.handler, i.arguments).ReturnsTo?
      ==> r == Send(Plain(run(i.handler, i.arguments).message), run(i.handler, i.arguments).replyTo)
    ensures parsed.Tokenized? ==>
      var i := Invoke(cfg, root, store, event, user, parsed.positional, parsed.keywords);
      i.Call? && run(i.handler, i.arguments).RaisesCommandError?
      ==> r == Send(Error(Raised(run(i.handler, i.arguments).message)), event.messageId)
    ensures r.Crashed? <==>
      parsed.Tokenized?
      && var i := Invoke(cfg, root, store, event, user, parsed.positional, parsed.keywords);
         i.Fault? || (i.Call? && run(i.handler, i.arguments).RaisesOther?)
  {
    match parsed
    case ParseFailed(message) => Send(Plain("Parse error: " + message), event.messageId)
    case Tokenized(positional, keywords) =>
      match Invoke(cfg, root, store, event, user, positional, keywords)
      case NoReply => Silent
      case Fault => Crashed
      case TrickBody(body) => Send(Plain(body), event.messageId)
      case Raise(e) => Send(Error(e), event.messageId)
      case Call(h, arguments) =>
        match run(h, arguments)
        case Returns(message) => Send(Plain(message), event.messageId)
        case ReturnsTo(message, replyTo) => Send(Plain(message), replyTo)
        case ReturnsOther => Silent
        case RaisesCommandError(message) => Send(Error(Raised(message)), event.messageId)
        case RaisesOther => Crashed
  }
}

=== FILE: errors.dfy ===
/** Every `CommandError` the dispatcher raises, one constructor per message
    template, carrying the values the template interpolates. */
module Errors {
  import opened Tokens

  datatype CommandError =
      /** The first flag names no top-level command. */
    | NoCommand(name: string)
      /** The group `parent` has no subcommand `name`; its subcommands are listed. */
    | NoSubcommand(parent: string, name: string, subcommands: set<string>)
      /** The flags stopped at a group; its subcommands are listed under the
          spaced names of all the tokens. */
    | Subcommands(group: string, subcommands: set<string>)
      /** A FLAG given to an enum parameter is none of its values; `values`
          lists them separated by slashes. */
    | InvalidValue(param: string, values: string)
      /** A token of the wrong kind for the parameter, with both kinds. */
    | IncorrectType(param: string, expected: Kind, actual: Kind)
      /** More positional tokens than parameters; `first` is the text of the
          first token left over. */
    | Superfluous(first: string)
      /** A keyword names a parameter the dispatcher fills itself. */
    | Illegal(name: string)
      /** A keyword names a parameter that already has a value. */
    | MultipleValues(name: string)
      /** A keyword names no parameter of the handler. */
    | Unknown(name: string)
      /** A required parameter got no value; `expected` is its kind. */
    | NotProvided(param: string, expected: Kind)
      /** The user is in none of the groups allowed to run the command. */
    | Forbidden(allowed: set<string>)
      /** A `CommandError` raised by the handler itself, with its message. */
    | Raised(message: string)
}

=== FILE: permissions.dfy ===
/** The permission gate: `check_permissions` and the command name `invoke`
    looks permissions up under. */
module Permissions {
  import opened Results
  import opened Errors
  import Text

  /** The command name permissions are stored under: the handler's function
      name without the handler suffix (when it ends with it), with each
      underscore turned into a space. */
  function CanonicalName(name: string, suffix: string): (r: string)
    ensures '_' !in r
    ensures |r| == if Text.EndsWith(name, suffix) then |name| - |suffix| else |name|
    ensures forall i :: 0 <= i < |r| ==> r[i] == if name[i] == '_' then ' ' else name[i]
  {
    Text.ReplaceChar(Text.RemoveSuffix(name, suffix), '_', ' ')
  }

  /** Handler names are Python identifiers, so they hold no spaces; for those
      the command name loses nothing: putting the underscores and the suffix
      back gives the handler name. */
  lemma CanonicalNameRoundTrip(name: string, suffix: string)
    requires Text.EndsWith(name, suffix) && ' ' !in name
    ensures Text.ReplaceChar(CanonicalName(name, suffix), ' ', '_') + suffix == name
  {
    var stem := Text.RemoveSuffix(name, suffix);
    var back := Text.ReplaceChar(CanonicalName(name, suffix), ' ', '_');
    assert back == stem by {
      forall i | 0 <= i < |stem|
        ensures back[i] == stem[i]
      {
        assert stem[i] == name[i];
      }
    }
  }

  /** The groups allowed to run `command`: one per `commandpermission` row;
      no rows means no restriction. */
  function AllowedGroups(rules: map<string, set<string>>, command: string): set<string>
  {
    if command in rules then rules[command] else {}
  }

  /** `check_permissions`, given the allowed groups the store returned. */
  function CheckPermissions(admin: string, groups: set<string>, allowed: set<string>): (r: Outcome<CommandError>)
    ensures r.Pass? <==> admin in groups || allowed == {} || exists g :: g in groups && g in allowed
    ensures r.Fail? ==> r.error == Forbidden(allowed)
  {
    assert |groups * allowed| == 0 ==> forall g :: g in groups && g in allowed ==> g in groups * allowed;
    if admin !in groups && |allowed| != 0 && |groups * allowed| == 0 then Fail(Forbidden(allowed))
    else Pass
  }

  /** A command with no permission rows is open to every user. */
  lemma UnlistedCommandIsOpen(admin: string, groups: set<string>, rules: map<string, set<string>>, command: string)
    requires command !in rules
    ensures CheckPermissions(admin, groups, AllowedGroups(rules, command)) == Pass
  {
  }

  /** Membership of the admin group is a bypass: it passes whatever the
      allowed set holds. */
  lemma AdminAlwaysPasses(admin: string, groups: set<string>, allowed: set<string>)
    requires admin in groups
    ensures CheckPermissions(admin, groups, allowed).Pass?
  {
  }

  /** Joining more groups never takes a permission away. */
  lemma MoreGroupsKeepPermission(admin: string, groups: set<string>, more: set<string>, allowed: set<string>)
    requires groups <= more
    requires CheckPermissions(admin, groups, allowed).Pass?
    ensures CheckPermissions(admin, more, allowed).Pass?
  {
  }
}

=== FILE: results.dfy ===
/** Failure-carrying wrappers shared by the whole model. The source signals
    failure by raising `CommandError`; here every such raise becomes an `Err`
    (or a `Fail`) value that the caller inspects. */
module Results {

  datatype Option<+T> = None | Some(value: T)

  /** Either a computed value or the error that stopped the computation. */
  datatype Result<+T, +E> = Ok(value: T) | Err(error: E)

  /** A check that either lets the caller proceed or reports an error. */
  datatype Outcome<+E> = Pass | Fail(error: E)
}

=== FILE: scenarios.dfy ===
/** Small concrete command trees and what the dispatcher does with them. */
module Scenarios {
  import opened Results
  import opened Tokens
  import opened Signatures
  import opened CommandTree
  import opened Errors
  import opened Binding
  import opened Dispatcher
  import opened Chat
  import opened Permissions
  import Text

  const cfg := Config("admin", "_command", {"event", "current_user"})
  const noStore := Store(map[], map[])
  const event := Event(7, 1, "someone")
  const user := User(1, "someone", {})

  /** Handlers by shape. The scenarios that reach one hold for any function
      name. */
  function Help(name: string): Handler { Handler(name, []) }
  function Echo(name: string): Handler { Handler(name, [Param("text", StringParam, false)]) }
  function Sub(name: string): Handler { Handler(name, [Param("n", NumberParam, false)]) }
  function Nested(leaf: Handler): map<string, Node> { map["group" := Group(map["sub" := Leaf(leaf)])] }

  const sub := Sub("group_sub_command")
  const nested := Nested(sub)

  /** `!!/help` runs `help` with no arguments: the context values are not
      parameters of it, so none are passed. */
  lemma HelpRunsWithNoArguments(name: string)
    ensures Invoke(cfg, map["help" := Leaf(Help(name))], noStore, event, user, [Flag("help")], [])
            == Call(Help(name), map[])
  {
    var root := map["help" := Leaf(Help(name))];
    var full := [Flag("help")];
    assert At(root, full, 1, Leaf(Help(name))) by {
      assert Path(full[..1]) == ["help"];
    }
    UnlistedCommandIsOpen(cfg.admin, user.groups, noStore.permissions, CanonicalName(name, cfg.suffix));
    assert Prepare([], cfg.ignored, full[1..], [], Context(event, user)) == Ok(map[]) by {
      assert full[1..] == [];
      assert Names([]) == {};
      assert Positional([], [], cfg.ignored) == Ok(map[]);
    }
    LeafBindsRest(cfg, root, noStore, event, user, full, [], 1, Help(name));
  }

  /** `!!/echo "hi"` binds `text` to "hi". */
  lemma EchoBindsText(name: string)
    ensures Invoke(cfg, map["echo" := Leaf(Echo(name))], noStore, event, user, [Flag("echo"), Quoted("hi")], [])
            == Call(Echo(name), map["text" := Str("hi")])
  {
    var echo := Echo(name);
    var root := map["echo" := Leaf(echo)];
    var full := [Flag("echo"), Quoted("hi")];
    var bound := map["text" := Str("hi")];
    assert At(root, full, 1, Leaf(echo)) by {
      assert full[..1] == [Flag("echo")];
      assert Path(full[..1]) == ["echo"];
    }
    UnlistedCommandIsOpen(cfg.admin, user.groups, noStore.permissions, CanonicalName(name, cfg.suffix));
    assert Prepare(echo.params, cfg.ignored, full[1..], [], Context(event, user)) == Ok(bound) by {
      assert full[1..] == [Quoted("hi")];
      assert Positional(echo.params, [Quoted("hi")], cfg.ignored) == Ok(bound) by {
        assert Coerce(echo.params[0], Quoted("hi")) == Ok(Str("hi"));
        assert BindPositional(echo.params, [Quoted("hi")], cfg.ignored, 1, bound) == Ok(bound);
      }
      assert BindKeywords(echo.params, cfg.ignored, [], 0, bound) == Ok(bound);
      assert FirstMissing(echo.params, cfg.ignored, bound, 0) == None;
      assert Inject(echo.params, Context(event, user), bound) == bound by {
        assert Names(echo.params) == {"text"};
      }
    }
    LeafBindsRest(cfg, root, noStore, event, user, full, [], 1, echo);
  }

  /** `!!/group sub` with no number reports `n` as not provided. */
  lemma SubcommandMissingNumber(name: string)
    ensures Invoke(cfg, Nested(Sub(name)), noStore, event, user, [Flag("group"), Flag("sub")], [])
            == Raise(NotProvided("n", NUMBER))
  {
    var leaf := Sub(name);
    var tree := Nested(leaf);
    var full := [Flag("group"), Flag("sub")];
    assert At(tree, full, 2, Leaf(leaf)) by {
      assert full[..2] == full;
      assert Path(full) == ["group", "sub"];
      assert Lookup(tree, ["group", "sub"]) == Lookup(map["sub" := Leaf(leaf)], ["sub"]);
    }
    UnlistedCommandIsOpen(cfg.admin, user.groups, noStore.permissions, CanonicalName(name, cfg.suffix));
    assert Prepare(leaf.params, cfg.ignored, full[2..], [], Context(event, user))
           == Err(NotProvided("n", NUMBER)) by {
      assert full[2..] == [];
      OneShortReportsNext(leaf.params, cfg.ignored, [], Context(event, user));
    }
    LeafBindsRest(cfg, tree, noStore, event, user, full, [], 2, leaf);
  }

  /** `!!/group nope` with no trick "nope" reports the group's subcommands. */
  lemma UnknownSubcommand()
    ensures Invoke(cfg, nested, noStore, event, user, [Flag("group"), Flag("nope")], [])
            == Raise(NoSubcommand("group", "nope", {"sub"}))
  {
    var full := [Flag("group"), Flag("nope")];
    assert full[..1] == [Flag("group")];
    assert Path(full[..1]) == ["group"];
    MissBelowTopLevel(cfg, nested, noStore, event, user, full, [], 1, map["sub" := Leaf(sub)]);
    assert full[..|full| - 1] == [Flag("group")];
    assert Displays([Flag("group")]) == ["group"];
    assert SpacedNames(full[..|full| - 1]) == "group";
    assert map["sub" := Leaf(sub)].Keys == {"sub"};
    assert full[1].name == "nope";
  }

  /** With a token after the missing name, the parent name shown includes the
      missing name: `!!/group nope x` names the group "group nope". */
  lemma ParentNameIncludesMissingName()
    ensures Invoke(cfg, nested, noStore, event, user, [Flag("group"), Flag("nope"), Word("x")], [])
            == Raise(NoSubcommand("group nope", "nope", {"sub"}))
  {
    var full := [Flag("group"), Flag("nope"), Word("x")];
    assert full[..1] == [Flag("group")];
    assert Path(full[..1]) == ["group"];
    MissBelowTopLevel(cfg, nested, noStore, event, user, full, [], 1, map["sub" := Leaf(sub)]);
    assert full[..|full| - 1] == [Flag("group"), Flag("nope")];
    assert Displays([Flag("group"), Flag("nope")]) == ["group", "nope"];
    assert Text.Join(" ", ["group", "nope"]) == "group nope";
    assert SpacedNames(full[..|full| - 1]) == "group nope";
    assert map["sub" := Leaf(sub)].Keys == {"sub"};
    assert full[1].name == "nope";
  }

  /** A trick shadows the error for a missing subcommand. */
  lemma TrickShadowsMissingSubcommand()
    ensures Invoke(cfg, nested, Store(map["nope" := "canned"], map[]), event, user,
                   [Flag("group"), Flag("nope")], [])
            == TrickBody("canned")
  {
    var full := [Flag("group"), Flag("nope")];
    assert full[..1] == [Flag("group")];
    assert Path(full[..1]) == ["group"];
    TrickAnswersMiss(cfg, nested, Store(map["nope" := "canned"], map[]), event, user, full, [], 1,
                     map["sub" := Leaf(sub)]);
  }

  /** A command that does not start with a flag gets no reply at all. */
  lemma WordFirstGetsNoReply()
    ensures Invoke(cfg, nested, noStore, event, user, [Word("group")], []) == NoReply
  {
  }

  /** A keyword naming an injected parameter is illegal before its token is
      looked at: `event=x` for a NUMBER parameter `event` is not a type error. */
  lemma IllegalBeforeTypeCheck()
    ensures BindKeywords([Param("event", NumberParam, false)], cfg.ignored, [("event", Word("x"))], 0, map[])
            == Err(Illegal("event"))
  {
    KeywordFirstFailure([Param("event", NumberParam, false)], cfg.ignored, [("event", Word("x"))], 0, map[], 0);
  }

  /** A parameter given both by position and by keyword has multiple values:
      `text` bound to "a" by position and then named `text=b`. */
  lemma PositionalThenKeywordRepeats()
    ensures Prepare([Param("text", StringParam, false)], cfg.ignored, [Quoted("a")], [("text", Quoted("b"))], map[])
            == Err(MultipleValues("text"))
  {
    var params := [Param("text", StringParam, false)];
    var bound := map["text" := Str("a")];
    assert Positional(params, [Quoted("a")], cfg.ignored) == Ok(bound) by {
      assert Coerce(params[0], Quoted("a")) == Ok(Str("a"));
      assert BindPositional(params, [Quoted("a")], cfg.ignored, 1, bound) == Ok(bound);
    }
    KeywordFirstFailure(params, cfg.ignored, [("text", Quoted("b"))], 0, bound, 0);
  }

  /** A rejected positional token is reported before an unknown keyword is
      looked at: a WORD for the NUMBER parameter `n`, with `zzz=y` beside it,
      is a type error. */
  lemma TypeErrorBeforeUnknownKeyword()
    ensures Prepare([Param("n", NumberParam, false)], cfg.ignored, [Word("x")], [("zzz", Word("y"))], map[])
            == Err(IncorrectType("n", NUMBER, WORD))
  {
    var params := [Param("n", NumberParam, false)];
    PrepareFirstRejected(params, cfg.ignored, [Word("x")], [("zzz", Word("y"))], map[], 0);
  }
}

=== FILE: signatures.dfy ===
/** The statically authored replacement for `inspect.signature`: each handler
    is described by its Python function name and its declared parameters in
    declaration order. */
module Signatures {
  import opened Tokens

  /** A parameter's annotation: an `Enum` class (given by its values in
      declaration order), or one of the plain types the package's type table
      maps to WORD, STRING or NUMBER. For a plain type, an optional annotation
      (the type or None, defaulting to None) is that type together with
      `hasDefault`. For an enum, `EnumOf` with `hasDefault` stands only for a
      bare enum annotation with a member as its default: an optional enum is
      not a parameter the dispatcher can bind. */
  datatype ParamType = EnumOf(literals: seq<string>) | WordParam | StringParam | NumberParam

  /** `expected_type`: the token kind a parameter's annotation asks for. */
  function Expected(t: ParamType): (k: Kind)
    ensures k == FLAG <==> t.EnumOf?
  {
    match t
    case EnumOf(_) => FLAG
    case WordParam => WORD
    case StringParam => STRING
    case NumberParam => NUMBER
  }

  /** One `inspect.Parameter`: its name, annotation and whether it has a
      default value. */
  datatype Param = Param(name: string, ptype: ParamType, hasDefault: bool)

  /** A command handler: the function's `__name__` and its parameters. */
  datatype Handler = Handler(name: string, params: seq<Param>)

  /** The names `inspect.signature(...).parameters` is keyed by. */
  function Names(params: seq<Param>): set<string>
  {
    set i | 0 <= i < |params| :: params[i].name
  }

  /** Parameter names are unique, as they are in any Python signature. */
  predicate Distinct(params: seq<Param>)
  {
    forall i, j :: 0 <= i < j < |params| ==> params[i].name != params[j].name
  }

  /** `parameters.get(name)` for a name the signature declares. */
  function Named(params: seq<Param>, name: string): (p: Param)
    requires name in Names(params)
    ensures p.name == name
  {
    if params[0].name == name then params[0]
    else
      assert name in Names(params[1..]) by {
        var i :| 0 <= i < |params| && params[i].name == name;
        assert params[1..][i - 1].name == name;
      }
      Named(params[1..], name)
  }
}

=== FILE: text.dfy ===
/** The string helpers the dispatcher relies on from Python's `str`:
    `sep.join(parts)`, `str.split`, `str(int)`, `removesuffix` and `replace`. */
module Text {

  /** `sep.join(parts)`. */
  function Join(sep: string, parts: seq<string>): string
  {
    if |parts| == 0 then ""
    else if |parts| == 1 then parts[0]
    else parts[0] + sep + Join(sep, parts[1..])
  }

  /** Index of the first occurrence of `c` in `s`. */
  function FirstIndex(s: string, c: char): (i: nat)
    requires c in s
    ensures i < |s| && s[i] == c && c !in s[..i]
  {
    if s[0] == c then 0
    else
      var i := FirstIndex(s[1..], c);
      assert s[..i + 1] == [s[0]] + s[1..][..i];
      i + 1
  }

  /** `s.split(sep)` for a one-character separator: the maximal pieces between
      separators, empty pieces included. */
  function Split(s: string, sep: char): (r: seq<string>)
    ensures |r| > 0
    ensures forall i :: 0 <= i < |r| ==> sep !in r[i]
    decreases |s|
  {
    if sep !in s then [s]
    else
      var i := FirstIndex(s, sep);
      [s[..i]] + Split(s[i + 1..], sep)
  }

  lemma FirstIndexOfJoined(a: string, c: char, b: string)
    requires c !in a
    ensures c in a + [c] + b && FirstIndex(a + [c] + b, c) == |a|
  {
    var s := a + [c] + b;
    assert s[|a|] == c;
    assert s[..|a|] == a;
  }

  /** Splitting a `sep`-joined list of pieces that do not contain `sep` gives
      the pieces back. */
  lemma {:induction false} SplitJoin(parts: seq<string>, sep: char)
    requires |parts| > 0
    requires forall i :: 0 <= i < |parts| ==> sep !in parts[i]
    ensures Split(Join([sep], parts), sep) == parts
  {
    if |parts| == 1 {
    } else {
      var rest := Join([sep], parts[1..]);
      var s := parts[0] + [sep] + rest;
      assert Join([sep], parts) == s;
      FirstIndexOfJoined(parts[0], sep, rest);
      var i := FirstIndex(s, sep);
      assert s[..i] == parts[0];
      assert s[i + 1..] == rest;
      SplitJoin(parts[1..], sep);
      assert Split(s, sep) == [parts[0]] + parts[1..];
    }
  }

  predicate IsDigit(c: char) {
    '0' <= c <= '9'
  }

  function DigitChar(d: nat): (c: char)
    requires d < 10
    ensures IsDigit(c)
  {
    "0123456789"[d]
  }

  function DigitValue(c: char): (d: nat)
    requires IsDigit(c)
    ensures d < 10
  {
    (c as int - '0' as int) as nat
  }

  /** Decimal digits of `n`, most significant first, without leading zeros. */
  function NatToString(n: nat): (s: string)
    ensures |s| > 0
    ensures forall i :: 0 <= i < |s| ==> IsDigit(s[i])
  {
    if n < 10 then [DigitChar(n)]
    else NatToString(n / 10) + [DigitChar(n % 10)]
  }

  /** `str(n)` for a Python `int`. */
  function IntToString(n: int): (s: string)
    ensures |s| > 0
  {
    if n < 0 then "-" + NatToString(-n) else NatToString(n)
  }

  /** Reads back a string of decimal digits. */
  function DecimalValue(s: string): nat
    requires forall i :: 0 <= i < |s| ==> IsDigit(s[i])
  {
    if s == [] then 0
    else DecimalValue(s[..|s| - 1]) * 10 + DigitValue(s[|s| - 1])
  }

  /** Reads back an optionally negative decimal numeral. */
  function ParseInt(s: string): int
    requires |s| > 0
    requires s[0] == '-' || IsDigit(s[0])
    requires forall i :: 1 <= i < |s| ==> IsDigit(s[i])
  {
    if s[0] == '-' then -(DecimalValue(s[1..]) as int) else DecimalValue(s)
  }

  lemma {:induction false} NatToStringRoundTrip(n: nat)
    ensures DecimalValue(NatToString(n)) == n
  {
    if n >= 10 {
      var s := NatToString(n);
      NatToStringRoundTrip(n / 10);
      assert s[..|s| - 1] == NatToString(n / 10);
      assert DigitValue(DigitChar(n % 10)) == n % 10;
    } else {
      assert DigitValue(DigitChar(n)) == n;
    }
  }

  /** `str` on integers loses nothing: the numeral reads back as the number. */
  lemma IntToStringRoundTrip(n: int)
    ensures var s := IntToString(n); (s[0] == '-' || IsDigit(s[0])) && ParseInt(s) == n
  {
    var s := IntToString(n);
    if n < 0 {
      NatToStringRoundTrip(-n);
      assert s[1..] == NatToString(-n);
    } else {
      NatToStringRoundTrip(n);
    }
  }

  predicate EndsWith(s: string, suffix: string) {
    |suffix| <= |s| && s[|s| - |suffix|..] == suffix
  }

  /** `s.removesuffix(suffix)`. */
  function RemoveSuffix(s: string, suffix: string): (r: string)
    ensures EndsWith(s, suffix) ==> r + suffix == s
    ensures !EndsWith(s, suffix) ==> r == s
  {
    if EndsWith(s, suffix) then s[..|s| - |suffix|] else s
  }

  /** `s.replace(from, to)` for single characters. */
  function ReplaceChar(s: string, from: char, to: char): (r: string)
    ensures |r| == |s|
    ensures forall i :: 0 <= i < |s| ==> r[i] == if s[i] == from then to else s[i]
  {
    if s == [] then []
    else [if s[0] == from then to else s[0]] + ReplaceChar(s[1..], from, to)
  }
}

=== FILE: tokens.dfy ===
/** The typed tokens the external tokenizer hands to the dispatcher: each is a
    pair of an `ArgumentType` and a value. */
module Tokens {
  import Text

  /** `ArgumentType`: the four token kinds. */
  datatype Kind = FLAG | WORD | STRING | NUMBER

  /** One token. A FLAG names a tree key or an enum literal, a WORD is a bare
      word, a STRING a quoted string and a NUMBER a number. */
  datatype Token = Flag(name: string) | Word(word: string) | Quoted(text: string) | Number(number: int)
  {
    /** The token's kind. */
    function KindOf(): Kind {
      match this
      case Flag(_) => FLAG
      case Word(_) => WORD
      case Quoted(_) => STRING
      case Number(_) => NUMBER
    }

    /** How a token's value reads when it is put into a message: a name or
        text as it is, a number in decimal. */
    function Display(): string {
      match this
      case Flag(n) => n
      case Word(w) => w
      case Quoted(t) => t
      case Number(n) => Text.IntToString(n)
    }
  }

  /** The displayed texts of the tokens, separated by single spaces: how a
      command path is shown in error messages. */
  function SpacedNames(tokens: seq<Token>): string
  {
    Text.Join(" ", Displays(tokens))
  }

  function Displays(tokens: seq<Token>): (r: seq<string>)
    ensures |r| == |tokens|
    ensures forall i :: 0 <= i < |tokens| ==> r[i] == tokens[i].Display()
  {
    if tokens == [] then [] else [tokens[0].Display()] + Displays(tokens[1..])
  }
}
